=== FILE: README.md ===
# Signal Viewer playback session — a Dafny model

The Signal Viewer is a desktop window that plays imported sample sequences ("signals")
on two scrolling graphs. This project models the window's two-graph playback session
with the widgets stripped away. The session is one immutable record (`Sessions.Session`)
holding:

- for each graph: the cursor (`signal_index_1/2`), the driving data (`signal_data_1/2`),
  `playing_state[g]`, the timer (running flag and period), `last_position[g]`, and the
  plot's drawn curves and view range;
- the registry lists: `imported_signals`, `imported_files`, `signal_colors`, and one
  visibility checkbox per row;
- the link flag, the graph selector's index and `current_graph`.

Every handler of the window is a pure function on that record:

- a timer tick (`update_plot_1/2`);
- pause/play, reset, link toggle and speed, each reaching one graph or, when linked, both;
- zoom, over `real`;
- graph selection;
- importing a batch of files, with the colour bookkeeping;
- moving a signal to the other graph;
- the visibility checkboxes' timer rule;
- the snapshot's signal selection and statistics.

`Sessions.WellFormed` is the invariant every transition keeps. It says the four registry
lists have equal length, the two graph columns agree, and a running timer never has a
period below 1 ms.

Modules:

- `Common`: `Option`/`Outcome`, Python slicing, `min`/`max`, subscript normalisation.
- `Viewport`: view ranges, the tick window, zoom.
- `Registry`: rows, graph counts, colours.
- `Sessions`: the session record and its invariant.
- `Playback`: ticks.
- `Commands`: control-panel commands.
- `Importing`: importing files.
- `Switching`: switching a signal's graph; visibility.
- `Snapshot`: snapshot selection and statistics.

The model follows the code, including where it departs from what the controls
suggest:

- The cursor is bounded by the length of the graph's driving data. That is the last
  imported or switched-in signal, not the longest signal on the graph. A switch
  re-points the driving data without resetting the cursor, so a cursor can end up past
  its data (`Switching.SwitchCanLeaveCursorPastData`).
- Reset rewinds the cursor and restarts the timer, but it leaves `playing_state` alone:
  a paused graph stays paused.
- Import passes the number of files to `ensure_signal_colors_length`, and that number
  always equals the number of colours. So the fixed palette is never used and every
  colour is the random one (`Importing.ImportColorsAreRandom`).
- The single-signal visibility rule fires only when the signal's row index is below the
  number of curves drawn on its graph. A lone signal on graph 2 at row 1 therefore never
  stops that graph's timer (`Switching.LoneSignalOnLaterRowKeepsTimer`).
- The combo box changes its index before it notifies `graph_selected`. The handler
  therefore saves and restores the same graph, and selecting a graph never moves a
  cursor (`Commands.SelectGraph`).
- A snapshot lists the graph's driving prefix once per signal on that graph, not each
  signal's own samples (`Snapshot.SnapshotRepeatsDrivingPrefix`).
- In an import batch, a path with no recognised extension re-imports the data of the
  last file that was read successfully, because the loop variable keeps its last value
  (`Importing.UnknownExtensionReusesData`). When no file has been read yet, it adds
  nothing: the unbound variable raises `UnboundLocalError`, which the loop catches.
- A tick stops drawing at the first signal on the graph whose step raises. `max()` of
  an empty prefix raises, and so does `plot()` for a visible signal shorter than the
  cursor, because it gets more x values than samples. The tick catches the exception, so
  that signal and every later one on the graph are neither drawn nor allowed to set the
  view. With two files of different lengths on one graph, this happens on every tick
  once the cursor passes the shorter one (`Playback.ShortVisibleSignalHaltsTick`).
- `switch_graph` indexes the lists Python-style, so row -1 is the last row. A row
  outside the lists raises `IndexError`, and the model returns `Raised(IndexError)`.

## Model

| member | source | states |
|---|---|---|
| Sessions.Init | SignalViewer.py:270-295 | a fresh window is well-formed: no signals, not linked, graph 1 selected, both graphs marked playing with cursor 0, empty driving data and stopped timers |
| Sessions.ShowAll | SignalViewer.py:456-501 | rebuilding the signal tables recreates every visibility checkbox checked; the number of rows and everything else are unchanged |
| Playback.Tick | SignalViewer.py:361-451 | a tick moves graph g's cursor by exactly one iff g is playing and its cursor is below the driving data's length; otherwise only the drawn curves are cleared; the other graph, the registry and the controls are untouched; at most one curve per signal on g is drawn |
| Playback.Render | SignalViewer.py:371-403 | the per-signal loop only appends curves, at most one per signal on the graph |
| Playback.FirstRaise | SignalViewer.py:372-386 | the first signal on the graph whose step raises (an empty prefix for max(), or a visible signal shorter than the cursor for plot()); no earlier signal on the graph raises, and the index is the end of the list exactly when none raises |
| Playback.RenderStopsAtFirstRaise | SignalViewer.py:371-403 | the loop does exactly what it would do on the signals before the first raising step alone: the caught exception ends it |
| Playback.TicksCursor | SignalViewer.py:363-369 | n ticks of a playing graph whose cursor starts within its driving data leave the cursor at min(start + n, length); the other graph and the driving data are unchanged |
| Playback.EmptyDrivingNeverAdvances | SignalViewer.py:363-367 | with empty driving data, any number of ticks leaves the cursor where it was |
| Playback.TickKeepsCursorBound | SignalViewer.py:363-369 | a cursor within its driving data stays within it under a tick and never decreases |
| Playback.RenderCurves | SignalViewer.py:372-386 | when no step on the graph raises, the loop draws exactly the visible signals on the graph, each cut to its first k samples, in list order |
| Playback.RenderView | SignalViewer.py:380-401 | when no step on the graph raises, the resulting view is the window of the last signal on the graph in list order (last one wins), or the old view if the graph has none |
| Playback.TickWindow | SignalViewer.py:372-403 | after a tick to cursor k, the graph shows each visible signal s before the first raising step as s[:k]; if one of those signals is on the graph, the x range is (k-150, k) with limits [0, k+0.1] and y range and y limits are [min, max] of the last one's revealed prefix; otherwise the view is kept |
| Playback.DrawnArePrefixes | SignalViewer.py:372-386 | every drawn curve is the k-prefix of a visible signal on the graph, there are no more curves than signals on the graph, and when no step raises each curve has exactly k samples, one per x value |
| Playback.ShortVisibleSignalHaltsTick | SignalViewer.py:372-403 | with [5] then [1, 2, 3] visible on graph 1 and cursor 1, the tick moves the cursor to 2 but draws nothing and keeps the view |
| Viewport.Window | SignalViewer.py:388-401 | one signal's window has x range width 150 ending at k, limits xMin 0 and xMax k+0.1, and a y range that contains every revealed sample and whose ends are revealed samples |
| Viewport.ApplyZoom | SignalViewer.py:745-760 | zoom keeps each axis's centre, multiplies each axis's width by the factor, and keeps the limits |
| Viewport.ZoomInverse | SignalViewer.py:745-760 | over the reals, zoom by f then by 1/f restores the view exactly |
| Viewport.ZoomInThenOutShrinks | SignalViewer.py:762-792 | the 0.7 and 1.1 factors are not inverses: zoom in then out leaves each axis at 0.77 of its width |
| Commands.Zoom | SignalViewer.py:762-792 | zoom reaches both graphs when linked, else the selected one; targeted views keep their centres and scale by the factor; untargeted graphs are unchanged |
| Commands.ZoomIn | SignalViewer.py:762-776 | zoom in narrows every targeted graph's x range to 0.7 of its width |
| Commands.ZoomOut | SignalViewer.py:778-792 | zoom out widens every targeted graph's x range to 1.1 of its width |
| Commands.ZoomRoundTrip | SignalViewer.py:745-792 | over the reals, session zoom by f then 1/f restores the session |
| Commands.TogglePlayPause | SignalViewer.py:706-716 | a checked button sets playing false and stops the timer (period kept); unchecked sets playing true and starts the timer at 60 ms; cursor, data and the other graph are untouched |
| Commands.PausePlay | SignalViewer.py:729-735 | pause/play applies the toggle to both graphs when linked, else to the selected graph only; an untargeted graph is exactly unchanged |
| Commands.ResetGraph | SignalViewer.py:718-727 | reset sets the cursor to 0 and the timer running at 60 ms; playing_state and everything else are unchanged |
| Commands.Reset | SignalViewer.py:737-743 | reset reaches both graphs when linked, else the selected one; the other graph is untouched |
| Commands.SetLinked | SignalViewer.py:794-801 | changing the link flag stores it and then resets under the new mode, leaving playing flags alone |
| Commands.SpeedInterval | SignalViewer.py:803-818 | the timer period max(1, 60 - v) is at least 1 and at least 60 - v, equal to one of them, and in [11, 110] for slider values in [-50, 49] |
| Commands.SpeedMonotone | SignalViewer.py:809-816 | a higher slider value never gives a longer period |
| Commands.SetSpeed | SignalViewer.py:803-818 | the speed sets the period of both timers when linked, else of the selected graph's; running flags, cursors and playing states are unchanged |
| Commands.StartDiscardsSpeed | SignalViewer.py:706-727 | after a speed change, resuming or resetting a graph puts its period back to 60 ms |
| Commands.GraphSelected | SignalViewer.py:820-848 | the handler saves graph current's cursor as its last position, then sets graph index's cursor to its last position (the cursor is unchanged when current = index) and restarts its timer at 60 ms |
| Commands.SelectGraph | SignalViewer.py:820-848 | picking a new graph in the selector moves no cursor and no playing flag; it records the graph's cursor as its last position and restarts its timer at 60 ms; picking the shown graph does nothing |
| Registry.NumberOfSignalsInGraph | SignalViewer.py:534-539 | the counting loop returns the number of rows on the graph, at most the number of rows, and 0 exactly when no row is on it |
| Registry.EnsureColorsLength | SignalViewer.py:584-597 | with at least n colours the list is unchanged; otherwise palette entries are appended by position, stopping at n or at the palette's end, and old colours are kept |
| Importing.Attempt | SignalViewer.py:312-325 | a .hea/.dat path is read as a record without its 4-character extension, a .csv path as a table, and any other path yields the data of the last file that was read successfully, or nothing (an `UnboundLocalError` the loop catches) when no file has been read yet |
| Importing.ImportOne | SignalViewer.py:327-354 | one read file appends (data, 0) to the signals and (path, 0) to the files, appends one colour, and makes graph 1 drive the data from cursor 0 with its timer at 60 ms; graph 2 is untouched |
| Importing.ImportLoop | SignalViewer.py:309-357 | the file loop keeps the invariant and graph 2, and adds at most one row per path |
| Importing.Reads | SignalViewer.py:311-357 | the reference list of files a batch reads, as (path, data) pairs: at most one per chosen path, each naming a chosen path; `Importing.ImportLoopReads` compares the loop with it |
| Importing.ImportLoopReads | SignalViewer.py:311-357 | the loop's signals are the earlier ones followed by (d, 0) for each read (p, d), in order, and its files the earlier ones followed by (p, 0): one row per file read and nothing else |
| Importing.ReadsAllReadable | SignalViewer.py:311-328 | no file is dropped: when every path has a recognised extension and reads, the batch reads every path, in order, with its own data |
| Importing.ImportLoopAppends | SignalViewer.py:309-357 | the loop only appends rows, colours and checkboxes; if no file reads, the session is unchanged |
| Importing.ImportLoopNewRows | SignalViewer.py:312-354 | every added row is on graph 1 in both lists, names a chosen path, and carries the random colour drawn for its position |
| Importing.ImportLoopDriving | SignalViewer.py:337-351 | after at least one read, graph 1 drives the last added row from cursor 0 with the timer at 60 ms, with its playing flag kept |
| Importing.Import | SignalViewer.py:299-359 | an import keeps the invariant, graph 2 and the controls; an empty choice changes nothing |
| Importing.ImportReads | SignalViewer.py:299-359 | after `import_signal`, the signals and files are the earlier rows followed by one row on graph 1 per file read, in order |
| Importing.ImportAllReadable | SignalViewer.py:299-359 | importing files that all have a recognised extension and all read adds one row per chosen path |
| Importing.ImportShape | SignalViewer.py:309-359 | every added row is on graph 1 with a chosen path and its random colour; graph 1 drives the last added row from cursor 0 at 60 ms; a batch with no read changes no row and no graph; every checkbox is checked after a non-empty choice |
| Importing.ImportBatch | SignalViewer.py:309-359 | the whole import: the signals and files are the earlier rows followed by exactly the files read, in order, on graph 1, with their random colours; graph 1 drives the last of them from cursor 0 at 60 ms; a batch with no read changes no row and no graph; every checkbox checked after a non-empty choice |
| Importing.ImportOnlyFeedsFirstGraph | SignalViewer.py:312-354 | an import leaves graph 2's signal count and channel unchanged and raises graph 1's count by the number of files read (the length of `Importing.Reads`) |
| Importing.ImportColorsAreRandom | SignalViewer.py:330-335 | ensure_signal_colors_length is a no-op at import and each import appends exactly the random colour, so colours and files stay equal in number |
| Importing.FailedReadAddsNothing | SignalViewer.py:311-357 | a file whose read raises adds nothing, and the batch goes on with the next file |
| Importing.UnknownExtensionReusesData | SignalViewer.py:312-328 | a path with no recognised extension right after a file that reads re-imports that file's data under its own name |
| Switching.SwitchGraph | SignalViewer.py:606-660 | a switch succeeds exactly for Python-valid row indices and otherwise raises IndexError; it keeps the invariant, and keeps the link flag and selection |
| Switching.SwitchEffect | SignalViewer.py:606-638 | a switch flips only row r's graph in both lists and keeps every colour; the destination drives the moved data and keeps its cursor, which then ticks once; with non-empty data the destination is playing with its timer at 60 ms; the source keeps its data, flag and timer |
| Switching.SwitchCounts | SignalViewer.py:611-621 | the source graph's count drops by one, the destination's rises by one, and the total equals the number of rows |
| Switching.SwitchTwiceRestores | SignalViewer.py:611-621 | switching the same row twice restores every signal's and file's graph and the colours |
| Switching.SwitchLastRow | SignalViewer.py:611-612 | row -1 is the last row |
| Switching.SwitchCanLeaveCursorPastData | SignalViewer.py:623-638 | if the destination cursor is beyond the moved data, it stays beyond it and the destination stops advancing |
| Switching.VisibilityStep | SignalViewer.py:514-532 | one row's pass changes at most that row's graph timer, by the rule, and only when the row fires |
| Switching.UpdateSignalVisibility | SignalViewer.py:503-532 | the visibility handler changes only timers |
| Switching.SetVisible | SignalViewer.py:497-503 | ticking a checkbox records its state and then changes only timers |
| Switching.VisibilityTimerRule | SignalViewer.py:503-539 | a graph with zero or several signals keeps its timer; a graph with one signal at row j gets its timer started at 60 ms or stopped to match j's checkbox, only when j is below the number of drawn curves; playing flags and cursors never change |
| Switching.LoneSignalOnLaterRowKeepsTimer | SignalViewer.py:514-531 | unchecking the only signal on graph 2, when it is row 1, leaves graph 2's timer running |
| Snapshot.Collect | SignalViewer.py:859-864 | the selection holds one copy of the prefix per file on the graph |
| Snapshot.SnapshotSelection | SignalViewer.py:850-864 | the snapshot selection has one entry per signal on the selected graph, each equal to that graph's driving data cut at its cursor |
| Snapshot.SnapshotRepeatsDrivingPrefix | SignalViewer.py:859-864 | two different signals on the graph are both reported as the driving prefix |
| Snapshot.SignalStats | SignalViewer.py:943-959 | stats of an empty prefix raise ValueError; otherwise duration is the sample count, and min and max are samples that bound every sample |

## Left out

- Qt widget code is left out: tables, row moves, cell widgets, menus, the context menu,
  icons, layouts, `update_play_pause_button_icon`, `update_color_signal_list` and the
  `table_1`/`table_2` lists. They only drive the display. The one display effect kept is
  `update_signal_list` recreating every visibility checkbox as checked.
- `change_signal_color` and the colour dialog are left out. They are UI-only: a colour is
  overwritten in place, and only rendering reads it (the tick's pen colour).
- File parsing with wfdb and pandas is a parameter (`Importing.Sources`): each reader
  returns samples or fails. The file dialog's result is the `paths` argument.
- The random colour generator is a parameter of `Importing.Sources`, indexed by the
  number of files, which is the argument the viewer passes.
- Rendering is left out: pens, colours, `setPen` in the visibility handler, the
  `padding=0.1` of `setYRange` in the tick, and the library's default padding of the
  `setRange` call in `apply_zoom` (SignalViewer.py:758-760). The model records the
  requested ranges and limits, not the range the plotting library settles on after
  padding and clamping to the limits. So in the program a zoom by f followed by 1/f need
  not restore the displayed view; `Viewport.ZoomInverse` and `Commands.ZoomRoundTrip`
  are statements about the requested ranges.
- The axis link that the viewer sets between its two plot widgets (`setXLink`/`setYLink`
  at SignalViewer.py:157-158) is left out: each graph keeps its own view range. In the
  program the two widgets share one x range and one y range. So an unlinked zoom also
  moves the other graph's view; a linked zoom applies the factor to the shared range
  twice (0.7 × 0.7 = 0.49 for zoom in); and every tick of one graph re-ranges the
  other. Commands.Zoom's "untargeted graphs are unchanged" and Commands.ZoomIn's and
  Commands.ZoomOut's width factors hold of the per-graph views, not of the shared range.
- The two checkbox tables are left out; visibility is a per-row boolean. The tick reads
  row i's checkbox from its graph's table (SignalViewer.py:384, :428), and only
  `update_signal_list` creates checkboxes, which `switch_graph` calls after its two ticks
  (:637-638, :660). So on the first switch of a row into graph 2, table 2 has no
  checkbox at that row: `cellWidget(i, 3)` returns None, and the AttributeError, caught
  at :448, ends that tick's loop at the moved row. The cursor has moved, but the moved
  row and the rows after it are not drawn and the graph is not re-ranged. This is the
  usual case, not a rare one. A row switched back into graph 1 finds the checkbox an
  earlier list update left there.
- Switching.SwitchGraph: its ticks treat the moved row as visible and draw it (with one
  row [1, 2, 3] on graph 1, the switch leaves graph 2 showing [1]), where the program's
  tick raises at that row for the missing checkbox, as described in the line above.
- Exceptions inside a tick other than `max()` of an empty prefix, `plot()` of a short
  visible signal and the missing checkbox above are left out.
- Samples are finite reals: NaN and infinity are not modelled. The readers produce NaN
  for invalid record samples and empty CSV cells. With a NaN present, Python's
  `max()`/`min()` depend on element order and need not bound the samples, and numpy's
  `min`/`max` return NaN.
- Viewport.Window: its y range bounds every revealed sample only for finite samples;
  with NaN the program's range need not (see the line above).
- Snapshot.SignalStats: its min and max bound the samples only for finite samples; with
  NaN the program reports NaN.
- Timer scheduling is left out. A tick is an explicit step; that a stopped timer
  delivers no ticks is up to the caller.
- The snapshot's document, file dialog, image export, DOCX/PDF conversion and the
  documentation link are left out. They are file I/O and external programs.
- `calculate_signal_stats`' mean and standard deviation are left out (floating-point
  numerics), and so is `get_signal_stats`, which has no caller.
- Zoom is computed over `real`, not floating point.
- Exceptions that escape a handler are returned as `Raised`. The model does not say what
  the application does next.
- The `timer_interval` field set in `switch_graph` is always 60 and appears only as the
  argument of `start`, so it is not kept as state.

=== FILE: commands.dfy ===
/** The control-panel commands: pause/play, reset, link toggle, speed, zoom and graph
    selection, each reaching one graph or, when linked, both. */
module Commands {
  import opened Common
  import opened Registry
  import opened Viewport
  import opened Sessions

  /** `toggle_play_pause(g, checked)`: a checked button pauses graph `g` and stops its
      timer; an unchecked one marks it playing and restarts the timer at 60 ms. */
  function TogglePlayPause(s: Session, g: GraphId, checked: bool): (r: Session)
    requires WellFormed(s)
    ensures WellFormed(r) && SameRegistry(s, r) && SameControls(s, r)
    ensures r.Chan(g).playing == !checked && r.Chan(g).timer.running == !checked
    ensures r.Chan(g).timer.interval == (if checked then s.Chan(g).timer.interval else BaseInterval)
    ensures r.Chan(g) == s.Chan(g).(playing := r.Chan(g).playing, timer := r.Chan(g).timer)
    ensures r.Chan(Other(g)) == s.Chan(Other(g))
  {
    var c := s.Chan(g);
    if checked then s.WithChan(g, c.(playing := false, timer := Stop(c.timer)))
    else s.WithChan(g, c.(playing := true, timer := Start(BaseInterval)))
  }

  /** `pause_play_toggle_event(checked)`: toggles both graphs when linked, otherwise the
      selected one; an untargeted graph is left exactly as it was. */
  function PausePlay(s: Session, checked: bool): (r: Session)
    requires WellFormed(s)
    ensures WellFormed(r) && SameRegistry(s, r) && SameControls(s, r)
    ensures forall g: GraphId :: Targets(s, g) ==>
              && r.Chan(g).playing == !checked && r.Chan(g).timer.running == !checked
              && r.Chan(g).timer.interval == (if checked then s.Chan(g).timer.interval else BaseInterval)
              && r.Chan(g) == s.Chan(g).(playing := r.Chan(g).playing, timer := r.Chan(g).timer)
    ensures forall g: GraphId :: !Targets(s, g) ==> r.Chan(g) == s.Chan(g)
  {
    if s.linked then TogglePlayPause(TogglePlayPause(s, 0, checked), 1, checked)
    else TogglePlayPause(s, s.selected, checked)
  }

  /** `reset_signal_for_graph(g)`: rewinds the cursor to 0 and restarts the timer at
      60 ms. `playing_state[g]` is not touched, so a paused graph stays paused. */
  function ResetGraph(s: Session, g: GraphId): (r: Session)
    requires WellFormed(s)
    ensures WellFormed(r) && SameRegistry(s, r) && SameControls(s, r)
    ensures r.Chan(g).cursor == 0 && r.Chan(g).timer == Start(BaseInterval)
    ensures r.Chan(g) == s.Chan(g).(cursor := 0, timer := r.Chan(g).timer)
    ensures r.Chan(Other(g)) == s.Chan(Other(g))
  {
    s.WithChan(g, s.Chan(g).(cursor := 0, timer := Start(BaseInterval)))
  }

  /** `reset_signal`: resets both graphs when linked, otherwise the selected one. */
  function Reset(s: Session): (r: Session)
    requires WellFormed(s)
    ensures WellFormed(r) && SameRegistry(s, r) && SameControls(s, r)
    ensures forall g: GraphId :: Targets(s, g) ==>
              r.Chan(g) == s.Chan(g).(cursor := 0, timer := Start(BaseInterval))
    ensures forall g: GraphId :: !Targets(s, g) ==> r.Chan(g) == s.Chan(g)
  {
    if s.linked then ResetGraph(ResetGraph(s, 0), 1)
    else ResetGraph(s, s.selected)
  }

  /** `link_graphs_changed`: stores the new link flag and then resets under the new mode. */
  function SetLinked(s: Session, checked: bool): (r: Session)
    requires WellFormed(s)
    ensures WellFormed(r) && SameRegistry(s, r)
    ensures r.linked == checked && r.selected == s.selected && r.currentGraph == s.currentGraph
    ensures forall g: GraphId :: (checked || g == s.selected) ==>
              && r.Chan(g).cursor == 0 && r.Chan(g).timer == Start(BaseInterval)
              && r.Chan(g).playing == s.Chan(g).playing
    ensures forall g: GraphId :: !(checked || g == s.selected) ==> r.Chan(g) == s.Chan(g)
  {
    Reset(s.(linked := checked))
  }

  /** The timer period for slider value `v`: `max(1, 60 - v)`. It is never below 1 ms,
      and on the slider's range `[-50, 49]` it lies in `[11, 110]`. */
  function SpeedInterval(v: int): (ms: int)
    ensures ms >= 1 && ms >= BaseInterval - v
    ensures ms == 1 || ms == BaseInterval - v
    ensures -50 <= v <= 49 ==> 11 <= ms <= 110
  {
    if BaseInterval - v > 1 then BaseInterval - v else 1
  }

  /** A faster slider setting never gives a longer period. */
  lemma SpeedMonotone(v: int, w: int)
    requires v <= w
    ensures SpeedInterval(w) <= SpeedInterval(v)
  {
  }

  /** `update_speed(v)`: sets the period of both timers when linked, otherwise of the
      selected graph's; running flags, cursors and playing states are unchanged. */
  function SetSpeed(s: Session, v: int): (r: Session)
    requires WellFormed(s)
    ensures WellFormed(r) && SameRegistry(s, r) && SameControls(s, r)
    ensures forall g: GraphId :: Targets(s, g) ==>
              r.Chan(g) == s.Chan(g).(timer := s.Chan(g).timer.(interval := SpeedInterval(v)))
    ensures forall g: GraphId :: !Targets(s, g) ==> r.Chan(g) == s.Chan(g)
  {
    var ms := SpeedInterval(v);
    if s.linked then
      s.(ch0 := s.ch0.(timer := s.ch0.timer.(interval := ms)),
         ch1 := s.ch1.(timer := s.ch1.timer.(interval := ms)))
    else
      var c := s.Chan(s.selected);
      s.WithChan(s.selected, c.(timer := c.timer.(interval := ms)))
  }

  /** Every `start(60)` discards a speed setting: after a speed change, resuming a
      graph or resetting it puts its timer back to 60 ms. */
  lemma StartDiscardsSpeed(s: Session, v: int, g: GraphId)
    requires WellFormed(s)
    ensures TogglePlayPause(SetSpeed(s, v), g, false).Chan(g).timer.interval == BaseInterval
    ensures ResetGraph(SetSpeed(s, v), g).Chan(g).timer.interval == BaseInterval
    ensures SetSpeed(s, v).Chan(g).timer.interval
            == (if Targets(s, g) then SpeedInterval(v) else s.Chan(g).timer.interval)
  {
  }

  /** Zooming a session: `apply_zoom` on both views when linked, otherwise on the
      selected graph's view. */
  function Zoom(s: Session, f: real): (r: Session)
    requires WellFormed(s)
    ensures WellFormed(r) && SameRegistry(s, r) && SameControls(s, r)
    ensures forall g: GraphId :: Targets(s, g) ==>
              r.Chan(g) == s.Chan(g).(plot := s.Chan(g).plot.(view := r.Chan(g).plot.view))
              && r.Chan(g).plot.view.x.Center() == s.Chan(g).plot.view.x.Center()
              && r.Chan(g).plot.view.x.Width() == s.Chan(g).plot.view.x.Width() * f
              && r.Chan(g).plot.view.y.Center() == s.Chan(g).plot.view.y.Center()
              && r.Chan(g).plot.view.y.Width() == s.Chan(g).plot.view.y.Width() * f
    ensures forall g: GraphId :: !Targets(s, g) ==> r.Chan(g) == s.Chan(g)
  {
    var z0 := s.ch0.(plot := s.ch0.plot.(view := ApplyZoom(s.ch0.plot.view, f)));
    var z1 := s.ch1.(plot := s.ch1.plot.(view := ApplyZoom(s.ch1.plot.view, f)));
    if s.linked then s.(ch0 := z0, ch1 := z1)
    else if s.selected == 0 then s.(ch0 := z0)
    else s.(ch1 := z1)
  }

  /** `zoom_in_event`: zoom by 0.7. */
  function ZoomIn(s: Session): (r: Session)
    requires WellFormed(s)
    ensures WellFormed(r)
    ensures forall g: GraphId :: Targets(s, g) ==>
              r.Chan(g).plot.view.x.Width() == s.Chan(g).plot.view.x.Width() * 0.7
  {
    Zoom(s, ZoomInFactor)
  }

  /** `zoom_out_event`: zoom by 1.1. */
  function ZoomOut(s: Session): (r: Session)
    requires WellFormed(s)
    ensures WellFormed(r)
    ensures forall g: GraphId :: Targets(s, g) ==>
              r.Chan(g).plot.view.x.Width() == s.Chan(g).plot.view.x.Width() * 1.1
  {
    Zoom(s, ZoomOutFactor)
  }

  /** Over the reals, zooming by `f` and then by `1/f` restores every view. */
  lemma ZoomRoundTrip(s: Session, f: real)
    requires WellFormed(s) && f != 0.0
    ensures Zoom(Zoom(s, f), 1.0 / f) == s
  {
    ZoomInverse(s.ch0.plot.view, f);
    ZoomInverse(s.ch1.plot.view, f);
  }

  /** `graph_selected(index)`, with `current` the value `currentIndex()` returns inside the
      handler: saves graph `current`'s cursor as its last position, then rewinds graph
      `index` to its own last position and restarts its timer at 60 ms. */
  function GraphSelected(s: Session, current: GraphId, index: GraphId): (r: Session)
    requires WellFormed(s)
    ensures WellFormed(r) && SameRegistry(s, r)
    ensures r.linked == s.linked && r.selected == s.selected && r.currentGraph == index
    ensures r.Chan(current).lastPosition == s.Chan(current).cursor
    ensures r.Chan(index).cursor
            == (if current == index then s.Chan(index).cursor else s.Chan(index).lastPosition)
    ensures r.Chan(index).timer == Start(BaseInterval)
    ensures forall g: GraphId :: r.Chan(g).playing == s.Chan(g).playing
                              && r.Chan(g).driving == s.Chan(g).driving
                              && r.Chan(g).plot == s.Chan(g).plot
    ensures current != index ==> r.Chan(current) == s.Chan(current).(lastPosition := s.Chan(current).cursor)
    ensures current == index ==> r.Chan(Other(index)) == s.Chan(Other(index))
  {
    var c := s.Chan(current);
    var saved := s.WithChan(current, c.(lastPosition := c.cursor));
    var d := saved.Chan(index);
    saved.WithChan(index, d.(cursor := d.lastPosition, timer := Start(BaseInterval))).(currentGraph := index)
  }

  /** Choosing graph `index` in the selector. The combo box updates its index before it
      emits `currentIndexChanged`, so the handler reads `current == index`: the save and
      the restore touch the same graph and no cursor moves. Choosing the graph already
      shown emits nothing. */
  function SelectGraph(s: Session, index: GraphId): (r: Session)
    requires WellFormed(s)
    ensures WellFormed(r) && SameRegistry(s, r) && r.linked == s.linked
    ensures r.selected == index
    ensures forall g: GraphId :: r.Chan(g).cursor == s.Chan(g).cursor
                              && r.Chan(g).playing == s.Chan(g).playing
    ensures index != s.selected ==>
              && r.Chan(index).lastPosition == s.Chan(index).cursor
              && r.Chan(index).timer == Start(BaseInterval)
              && r.currentGraph == index
              && r.Chan(Other(index)) == s.Chan(Other(index))
    ensures index == s.selected ==> r == s
  {
    if index == s.selected then s
    else GraphSelected(s.(selected := index), index, index)
  }
}

=== FILE: common.dfy ===
/** Small datatypes and sequence helpers shared by the signal-viewer model. */
module Common {

  datatype Option<+T> = None | Some(value: T)

  /** The exceptions the modelled handlers can raise and not catch. */
  datatype Error =
    | IndexError   // a list subscript outside the list
    | ValueError   // min()/max() of an empty sample sequence

  /** The outcome of a handler that either finishes or raises. */
  datatype Outcome<+T> = Done(value: T) | Raised(error: Error)

  /** Python's `s[:k]` for a non-negative `k`: slicing past the end yields all of `s`. */
  function Prefix<T>(s: seq<T>, k: nat): (r: seq<T>)
    ensures |r| == (if k <= |s| then k else |s|)
    ensures r <= s
  {
    if k <= |s| then s[..k] else s
  }

  /** Python's `s[lo:hi]` for non-negative bounds: both are clamped to the length. */
  function Slice<T>(s: seq<T>, lo: nat, hi: nat): (r: seq<T>)
    ensures lo <= hi <= |s| ==> r == s[lo..hi]
    ensures |s| <= lo || hi <= lo ==> r == []
  {
    var a := if lo <= |s| then lo else |s|;
    var b := if hi <= |s| then hi else |s|;
    if a <= b then s[a..b] else []
  }

  /** `str.endswith`. */
  predicate EndsWith(s: string, suffix: string) {
    |suffix| <= |s| && s[|s| - |suffix|..] == suffix
  }

  /** Python's `min` over a non-empty sequence of samples. */
  function Min(s: seq<real>): (m: real)
    requires |s| > 0
    ensures m in s
    ensures forall i :: 0 <= i < |s| ==> m <= s[i]
  {
    if |s| == 1 then s[0]
    else
      var m := Min(s[1..]);
      assert forall i :: 1 <= i < |s| ==> s[i] == s[1..][i - 1];
      if s[0] <= m then s[0] else m
  }

  /** Python's `max` over a non-empty sequence of samples. */
  function Max(s: seq<real>): (m: real)
    requires |s| > 0
    ensures m in s
    ensures forall i :: 0 <= i < |s| ==> s[i] <= m
  {
    if |s| == 1 then s[0]
    else
      var m := Max(s[1..]);
      assert forall i :: 1 <= i < |s| ==> s[i] == s[1..][i - 1];
      if m <= s[0] then s[0] else m
  }

  /** Concatenation is associative (stated for any element type, so that sequences of
      sequences are not compared element by element). */
  lemma ConcatAssoc<T>(a: seq<T>, b: seq<T>, c: seq<T>)
    ensures a + b + c == a + (b + c)
  {
  }

  /** Writing a slot back to its old value, over an intermediate write, restores the
      sequence. */
  lemma UpdateTwice<T>(a: seq<T>, i: nat, x: T, y: T)
    requires i < |a| && a[i] == y
    ensures a[i := x][i := y] == a
  {
  }

  /** Python's subscript normalisation: `-n <= r < n` selects row `r mod n`,
      anything else raises `IndexError`. */
  function PyIndex(n: nat, r: int): (o: Option<nat>)
    ensures o.Some? <==> -(n as int) <= r < n
    ensures o.Some? ==> o.value < n && (o.value == r || o.value == r + n)
  {
    if 0 <= r < n then Some(r)
    else if -(n as int) <= r < 0 then Some(r + n)
    else None
  }
}

=== FILE: importing.dfy ===
/** `import_signal`: loads a batch of files onto graph 1 (index 0) and restarts its
    playback on the newest one. File parsing and the random colour are parameters. */
module Importing {
  import opened Common
  import opened Registry
  import opened Sessions

  /** The outside world an import consults: the record reader (given the path without
      its 4-character extension), the table reader (the `values` column), each returning
      `None` when it raises, and the random colour drawn for the `n`-th file. */
  datatype Sources = Sources(record: string -> Option<Samples>,
                             table: string -> Option<Samples>,
                             randomColor: nat -> Color)

  predicate IsRecordPath(p: string) {
    EndsWith(p, ".hea") || EndsWith(p, ".dat")
  }

  predicate IsTablePath(p: string) {
    EndsWith(p, ".csv")
  }

  /** The data the `try` body appends for `path`, or `None` when it raises. `bound` is
      what the loop-local `signal_data` holds from an earlier file (`None` while unbound):
      a path with neither extension assigns nothing, so it re-imports that earlier data,
      or raises `UnboundLocalError` when there is none. */
  function Attempt(path: string, bound: Option<Samples>, src: Sources): (r: Option<Samples>)
    ensures IsRecordPath(path) ==> r == src.record(path[..|path| - 4])
    ensures !IsRecordPath(path) && IsTablePath(path) ==> r == src.table(path)
    ensures !IsRecordPath(path) && !IsTablePath(path) ==> r == bound
    ensures bound.None? && r.Some? ==> IsRecordPath(path) || IsTablePath(path)
  {
    if IsRecordPath(path) then src.record(path[..|path| - 4])
    else if IsTablePath(path) then src.table(path)
    else bound
  }

  /** The body of the `try` for one successfully read file. */
  function ImportOne(s: Session, path: string, data: Samples, color: Color): (r: Session)
    requires WellFormed(s)
    ensures WellFormed(r)
    ensures r.signals == s.signals + [Signal(data, 0)]
    ensures r.files == s.files + [File(path, 0)]
    ensures r.colors == s.colors + [color]
    ensures r.visible[..|s.visible|] == s.visible
    ensures r.ch0 == s.ch0.(driving := data, cursor := 0, timer := Start(BaseInterval))
    ensures r.ch1 == s.ch1 && SameControls(s, r)
  {
    var colors := EnsureColorsLength(s.colors, |s.files|);
    var c := s.ch0;
    s.(signals := s.signals + [Signal(data, 0)],
       colors := colors + [color],
       ch0 := c.(driving := data, cursor := 0, timer := Start(BaseInterval)),
       files := s.files + [File(path, 0)],
       visible := s.visible + [true])
  }

  /** The `for file_path in file_paths` loop, with the current binding of `signal_data`. */
  function ImportLoop(s: Session, paths: seq<string>, bound: Option<Samples>, src: Sources): (r: Session)
    requires WellFormed(s)
    ensures WellFormed(r) && SameControls(s, r) && r.ch1 == s.ch1
    ensures |s.signals| <= |r.signals| <= |s.signals| + |paths|
    decreases |paths|
  {
    if |paths| == 0 then s
    else
      match Attempt(paths[0], bound, src)
      case None => ImportLoop(s, paths[1..], bound, src)
      case Some(d) =>
        ImportLoop(ImportOne(s, paths[0], d, src.randomColor(|s.files|)), paths[1..], Some(d), src)
  }

  /** Reference for what a batch reads: the path and data of every file whose `try`
      body completes, in the order chosen, with `signal_data` carried from one file to
      the next. */
  function Reads(paths: seq<string>, bound: Option<Samples>, src: Sources): (rd: seq<(string, Samples)>)
    ensures |rd| <= |paths|
    ensures forall i :: 0 <= i < |rd| ==> rd[i].0 in paths
    decreases |paths|
  {
    if |paths| == 0 then []
    else
      match Attempt(paths[0], bound, src)
      case None => Reads(paths[1..], bound, src)
      case Some(d) => [(paths[0], d)] + Reads(paths[1..], Some(d), src)
  }

  /** The signal rows of a list of reads: `(d, 0)` for each read `(p, d)`. */
  function SignalRows(rd: seq<(string, Samples)>): (rows: seq<Entry>)
    ensures |rows| == |rd|
    ensures forall i :: 0 <= i < |rd| ==> rows[i] == Signal(rd[i].1, 0)
    decreases |rd|
  {
    if |rd| == 0 then [] else [Signal(rd[0].1, 0)] + SignalRows(rd[1..])
  }

  /** The file rows of a list of reads: `(p, 0)` for each read `(p, d)`. */
  function FileRows(rd: seq<(string, Samples)>): (rows: seq<FileEntry>)
    ensures |rows| == |rd|
    ensures forall i :: 0 <= i < |rd| ==> rows[i] == File(rd[i].0, 0)
    decreases |rd|
  {
    if |rd| == 0 then [] else [File(rd[0].0, 0)] + FileRows(rd[1..])
  }

  /** The loop adds exactly one row per file read, in order: the reads `(p, d)` become
      signals `(d, 0)` and files `(p, 0)` after the earlier rows, and nothing else is
      added. */
  lemma {:induction false} ImportLoopReads(s: Session, paths: seq<string>, bound: Option<Samples>, src: Sources)
    requires WellFormed(s)
    ensures var r := ImportLoop(s, paths, bound, src);
            var rd := Reads(paths, bound, src);
            && r.signals == s.signals + SignalRows(rd)
            && r.files == s.files + FileRows(rd)
    decreases |paths|
  {
    if |paths| == 0 {
      assert s.signals + [] == s.signals && s.files + [] == s.files;
    } else {
      match Attempt(paths[0], bound, src)
      case None =>
        ImportLoopReads(s, paths[1..], bound, src);
      case Some(d) =>
        var t := ImportOne(s, paths[0], d, src.randomColor(|s.files|));
        ImportLoopReads(t, paths[1..], Some(d), src);
        var rest := Reads(paths[1..], Some(d), src);
        var rd := [(paths[0], d)] + rest;
        assert rd[1..] == rest;
        ConcatAssoc(s.signals, [Signal(d, 0)], SignalRows(rest));
        ConcatAssoc(s.files, [File(paths[0], 0)], FileRows(rest));
    }
  }

  /** No file is dropped: when every path has a recognised extension and reads, the
      batch reads all of them, in order. */
  lemma {:induction false} ReadsAllReadable(paths: seq<string>, bound: Option<Samples>, src: Sources)
    requires forall i :: 0 <= i < |paths| ==>
               (IsRecordPath(paths[i]) || IsTablePath(paths[i])) && Attempt(paths[i], None, src).Some?
    ensures |Reads(paths, bound, src)| == |paths|
    ensures forall i :: 0 <= i < |paths| ==>
              Reads(paths, bound, src)[i] == (paths[i], Attempt(paths[i], None, src).value)
    decreases |paths|
  {
    if |paths| > 0 {
      var d := Attempt(paths[0], None, src).value;
      assert Attempt(paths[0], bound, src) == Some(d);
      assert forall i :: 1 <= i < |paths| ==> paths[i] == paths[1..][i - 1];
      ReadsAllReadable(paths[1..], Some(d), src);
    }
  }

  /** The loop only appends: the earlier rows, colours and checkboxes are kept, and a
      batch in which no file reads leaves the session as it was. */
  lemma {:induction false} ImportLoopAppends(s: Session, paths: seq<string>, bound: Option<Samples>, src: Sources)
    requires WellFormed(s)
    ensures var r := ImportLoop(s, paths, bound, src);
            && r.signals[..|s.signals|] == s.signals && r.files[..|s.files|] == s.files
            && r.colors[..|s.colors|] == s.colors && r.visible[..|s.visible|] == s.visible
            && (|r.signals| == |s.signals| ==> r == s)
    decreases |paths|
  {
    if |paths| > 0 {
      match Attempt(paths[0], bound, src)
      case None =>
        ImportLoopAppends(s, paths[1..], bound, src);
      case Some(d) =>
        var t := ImportOne(s, paths[0], d, src.randomColor(|s.files|));
        ImportLoopAppends(t, paths[1..], Some(d), src);
        var r := ImportLoop(t, paths[1..], Some(d), src);
        assert r.signals[..|s.signals|] == r.signals[..|t.signals|][..|s.signals|];
        assert r.files[..|s.files|] == r.files[..|t.files|][..|s.files|];
        assert r.colors[..|s.colors|] == r.colors[..|t.colors|][..|s.colors|];
        assert r.visible[..|s.visible|] == r.visible[..|t.visible|][..|s.visible|];
    }
  }

  /** Each row the loop adds is on graph 1 (index 0), names one of the chosen paths, and
      carries the random colour drawn for its position. */
  lemma {:induction false} ImportLoopNewRows(s: Session, paths: seq<string>, bound: Option<Samples>, src: Sources)
    requires WellFormed(s)
    ensures var r := ImportLoop(s, paths, bound, src);
            forall i :: |s.signals| <= i < |r.signals| ==>
              && r.signals[i].graph == 0 && r.files[i].graph == 0
              && r.files[i].path in paths
              && r.colors[i] == src.randomColor(i)
    decreases |paths|
  {
    if |paths| > 0 {
      match Attempt(paths[0], bound, src)
      case None =>
        ImportLoopNewRows(s, paths[1..], bound, src);
      case Some(d) =>
        var t := ImportOne(s, paths[0], d, src.randomColor(|s.files|));
        ImportLoopNewRows(t, paths[1..], Some(d), src);
        ImportLoopAppends(t, paths[1..], Some(d), src);
        var r := ImportLoop(t, paths[1..], Some(d), src);
        var n := |s.signals|;
        if n < |r.signals| {
          assert r.signals[n] == r.signals[..|t.signals|][n] == t.signals[n];
          assert r.files[n] == r.files[..|t.files|][n] == t.files[n];
          assert r.colors[n] == r.colors[..|t.colors|][n] == t.colors[n];
        }
    }
  }

  /** After a batch that read at least one file, graph 1 drives the last row added, from
      cursor 0, with its timer running at 60 ms; its playing flag is unchanged. */
  lemma {:induction false} ImportLoopDriving(s: Session, paths: seq<string>, bound: Option<Samples>, src: Sources)
    requires WellFormed(s)
    ensures var r := ImportLoop(s, paths, bound, src);
            |r.signals| > |s.signals| ==>
              r.ch0 == s.ch0.(driving := r.signals[|r.signals| - 1].samples, cursor := 0,
                              timer := Start(BaseInterval))
    decreases |paths|
  {
    if |paths| > 0 {
      match Attempt(paths[0], bound, src)
      case None =>
        ImportLoopDriving(s, paths[1..], bound, src);
      case Some(d) =>
        var t := ImportOne(s, paths[0], d, src.randomColor(|s.files|));
        ImportLoopDriving(t, paths[1..], Some(d), src);
        ImportLoopAppends(t, paths[1..], Some(d), src);
    }
  }

  /** `import_signal` for the chosen `paths`: runs the loop, then `update_signal_list`
      recreates every visibility checkbox checked. An empty choice does nothing. */
  function Import(s: Session, paths: seq<string>, src: Sources): (r: Session)
    requires WellFormed(s)
    ensures WellFormed(r) && SameControls(s, r) && r.ch1 == s.ch1
    ensures paths == [] ==> r == s
  {
    if |paths| == 0 then s else ShowAll(ImportLoop(s, paths, None, src))
  }

  /** `import_signal` adds exactly the rows of the files read, in order. */
  lemma ImportReads(s: Session, paths: seq<string>, src: Sources)
    requires WellFormed(s)
    ensures var r := Import(s, paths, src);
            var rd := Reads(paths, None, src);
            r.signals == s.signals + SignalRows(rd) && r.files == s.files + FileRows(rd)
  {
    if |paths| == 0 {
      assert s.signals + [] == s.signals && s.files + [] == s.files;
    } else {
      ImportLoopReads(s, paths, None, src);
    }
  }

  /** An import of files that all have a recognised extension and all read adds one
      row per chosen path. */
  lemma ImportAllReadable(s: Session, paths: seq<string>, src: Sources)
    requires WellFormed(s)
    requires forall i :: 0 <= i < |paths| ==>
               (IsRecordPath(paths[i]) || IsTablePath(paths[i])) && Attempt(paths[i], None, src).Some?
    ensures |Import(s, paths, src).signals| == |s.signals| + |paths|
  {
    ImportReads(s, paths, src);
    ReadsAllReadable(paths, None, src);
  }

  /** The rows an import adds are on graph 1, name chosen paths and carry their random
      colours; graph 1 drives the last of them from cursor 0 with its timer at 60 ms; a
      batch in which nothing reads changes no row and no graph; a non-empty choice leaves
      every checkbox checked. */
  lemma ImportShape(s: Session, paths: seq<string>, src: Sources)
    requires WellFormed(s)
    ensures var r := Import(s, paths, src);
            && |s.signals| <= |r.signals| <= |s.signals| + |paths|
            && r.signals[..|s.signals|] == s.signals && r.files[..|s.files|] == s.files
            && r.colors[..|s.colors|] == s.colors
            && (forall i :: |s.signals| <= i < |r.signals| ==>
                  && r.signals[i].graph == 0 && r.files[i].graph == 0
                  && r.files[i].path in paths && r.colors[i] == src.randomColor(i))
            && (|r.signals| > |s.signals| ==>
                  r.ch0 == s.ch0.(driving := r.signals[|r.signals| - 1].samples, cursor := 0,
                                  timer := Start(BaseInterval)))
            && (|r.signals| == |s.signals| ==> r.ch0 == s.ch0 && r.signals == s.signals && r.files == s.files)
            && (|paths| > 0 ==> forall j :: 0 <= j < |r.visible| ==> r.visible[j])
  {
    if |paths| > 0 {
      ImportLoopAppends(s, paths, None, src);
      ImportLoopNewRows(s, paths, None, src);
      ImportLoopDriving(s, paths, None, src);
    }
  }

  /** `import_signal` as a whole: the earlier rows are kept; each file read adds one row,
      in order, on graph 1 (index 0) to both lists with the random colour drawn for it,
      and nothing else is added; graph 1 then drives the last row added from cursor 0
      with its timer at 60 ms; a batch in which nothing reads changes no row and no
      graph; a non-empty choice leaves every checkbox checked. */
  lemma ImportBatch(s: Session, paths: seq<string>, src: Sources)
    requires WellFormed(s)
    ensures var r := Import(s, paths, src);
            var rd := Reads(paths, None, src);
            && r.signals == s.signals + SignalRows(rd) && r.files == s.files + FileRows(rd)
            && |r.signals| == |s.signals| + |rd| <= |s.signals| + |paths|
            && r.signals[..|s.signals|] == s.signals && r.files[..|s.files|] == s.files
            && r.colors[..|s.colors|] == s.colors
            && (forall i :: |s.signals| <= i < |r.signals| ==>
                  r.signals[i].graph == 0 && r.files[i].graph == 0
                  && r.files[i].path in paths && r.colors[i] == src.randomColor(i))
            && (|r.signals| > |s.signals| ==>
                  r.ch0 == s.ch0.(driving := r.signals[|r.signals| - 1].samples, cursor := 0,
                                  timer := Start(BaseInterval)))
            && (|r.signals| == |s.signals| ==> r.ch0 == s.ch0 && r.signals == s.signals && r.files == s.files)
            && (|paths| > 0 ==> forall j :: 0 <= j < |r.visible| ==> r.visible[j])
  {
    ImportShape(s, paths, src);
    ImportReads(s, paths, src);
  }

  /** An import never touches graph 2: its channel and its number of signals stay the
      same, and every new row lands on graph 1. Graph 1's count grows by the number of
      files read, which is the number of rows added. */
  lemma ImportOnlyFeedsFirstGraph(s: Session, paths: seq<string>, src: Sources)
    requires WellFormed(s)
    ensures var r := Import(s, paths, src);
            && r.CountInGraph(1) == s.CountInGraph(1)
            && r.CountInGraph(0) == s.CountInGraph(0) + (|r.signals| - |s.signals|)
            && r.CountInGraph(0) == s.CountInGraph(0) + |Reads(paths, None, src)|
            && r.ch1 == s.ch1
  {
    var r := Import(s, paths, src);
    var rows := SignalRows(Reads(paths, None, src));
    assert r.signals == s.signals + rows by {
      ImportReads(s, paths, src);
    }
    var gs := Graphs(rows);
    assert Graphs(r.signals) == Graphs(s.signals) + gs;
    OccurrencesConcat(Graphs(s.signals), gs, 0);
    OccurrencesConcat(Graphs(s.signals), gs, 1);
    OccurrencesZero(gs, 1);
    OccurrencesPartition(gs);
  }

  /** Every imported colour is the random one: `ensure_signal_colors_length` is called
      with the number of files, which always equals the number of colours, so the
      palette is never used. */
  lemma ImportColorsAreRandom(s: Session, path: string, data: Samples, color: Color)
    requires WellFormed(s)
    ensures EnsureColorsLength(s.colors, |s.files|) == s.colors
    ensures ImportOne(s, path, data, color).colors == s.colors + [color]
  {
  }

  /** A file whose read raises adds nothing, and the batch goes on with the next file
      under the same binding. */
  lemma FailedReadAddsNothing(s: Session, paths: seq<string>, bound: Option<Samples>, src: Sources)
    requires WellFormed(s) && |paths| > 0 && Attempt(paths[0], bound, src).None?
    ensures ImportLoop(s, paths, bound, src) == ImportLoop(s, paths[1..], bound, src)
  {
  }

  /** A path with an unrecognised extension right after a file that reads re-imports
      that file's data under its own name. */
  lemma UnknownExtensionReusesData(s: Session, p: string, q: string, bound: Option<Samples>, src: Sources, d: Samples)
    requires WellFormed(s) && Attempt(p, bound, src) == Some(d)
    requires !IsRecordPath(q) && !IsTablePath(q)
    ensures var r := ImportLoop(s, [p, q], bound, src);
            && r.signals == s.signals + [Signal(d, 0), Signal(d, 0)]
            && r.files == s.files + [File(p, 0), File(q, 0)]
  {
    var t1 := ImportOne(s, p, d, src.randomColor(|s.files|));
    assert [p, q][1..] == [q];
    assert ImportLoop(s, [p, q], bound, src) == ImportLoop(t1, [q], Some(d), src);
    assert Attempt(q, Some(d), src) == Some(d);
    var t2 := ImportOne(t1, q, d, src.randomColor(|t1.files|));
    assert [q][1..] == [];
    assert ImportLoop(t1, [q], Some(d), src) == t2;
    assert s.signals + [Signal(d, 0)] + [Signal(d, 0)] == s.signals + [Signal(d, 0), Signal(d, 0)];
    assert s.files + [File(p, 0)] + [File(q, 0)] == s.files + [File(p, 0), File(q, 0)];
  }
}

=== FILE: playback.dfy ===
/** One timer tick of a graph (`update_plot_1` / `update_plot_2`): the cursor step and
    the per-signal window it draws. */
module Playback {
  import opened Common
  import opened Registry
  import opened Viewport
  import opened Sessions

  /** Whether a tick on `g` moves its cursor: the graph is marked playing and the cursor
      is still inside the driving data (not the longest signal on the graph). */
  predicate Advances(s: Session, g: GraphId) {
    s.Chan(g).playing && s.Chan(g).cursor < |s.Chan(g).driving|
  }

  /** Whether a signal's step of the loop raises once the cursor is `k`: `max()` of an
      empty prefix, or, for a visible signal, `plot()` handed `k` x values and fewer
      than `k` samples. Either way the step raises before it touches the view. */
  predicate Raises(samples: Samples, visible: bool, k: nat) {
    |Prefix(samples, k)| == 0 || (visible && |samples| < k)
  }

  /** The per-signal loop of a tick, once the cursor is `k`: every signal on graph `g`,
      in list order, is cut to its first `k` samples; a visible one is drawn, and each one
      overwrites the view with its own window, so the last one processed wins. A step
      that raises is caught by the tick and the rest of the loop is skipped. */
  function Render(es: seq<Entry>, vis: seq<bool>, g: GraphId, k: nat, p: Plot): (r: Plot)
    requires |vis| == |es|
    ensures |p.curves| <= |r.curves| <= |p.curves| + Occurrences(Graphs(es), g)
    ensures r.curves[..|p.curves|] == p.curves
    decreases |es|
  {
    if |es| == 0 then p
    else
      assert Graphs(es[1..]) == Graphs(es)[1..];
      if es[0].graph != g then Render(es[1..], vis[1..], g, k, p)
      else if Raises(es[0].samples, vis[0], k) then p
      else
        var y := Prefix(es[0].samples, k);
        var curves := if vis[0] then p.curves + [y] else p.curves;
        Render(es[1..], vis[1..], g, k, Plot(curves, Window(y, k)))
  }

  /** A tick on graph `g`: the widget is cleared; if the graph advances, the cursor moves
      by one and the signals on `g` are redrawn up to it. Nothing else changes. */
  function Tick(s: Session, g: GraphId): (r: Session)
    requires WellFormed(s)
    ensures WellFormed(r) && SameRegistry(s, r) && SameControls(s, r)
    ensures r.Chan(Other(g)) == s.Chan(Other(g))
    ensures Advances(s, g) <==> r.Chan(g).cursor == s.Chan(g).cursor + 1
    ensures !Advances(s, g) ==> r.Chan(g) == s.Chan(g).(plot := s.Chan(g).plot.(curves := []))
    ensures r.Chan(g) == s.Chan(g).(cursor := r.Chan(g).cursor, plot := r.Chan(g).plot)
    ensures |r.Chan(g).plot.curves| <= s.CountInGraph(g)
  {
    var c := s.Chan(g);
    var cleared := c.plot.(curves := []);
    if Advances(s, g) then
      var k := c.cursor + 1;
      s.WithChan(g, c.(cursor := k, plot := Render(s.signals, s.visible, g, k, cleared)))
    else
      s.WithChan(g, c.(plot := cleared))
  }

  /** `n` consecutive ticks on graph `g`. */
  function Ticks(s: Session, g: GraphId, n: nat): (r: Session)
    requires WellFormed(s)
    ensures WellFormed(r)
    decreases n
  {
    if n == 0 then s else Ticks(Tick(s, g), g, n - 1)
  }

  /** A cursor inside its driving data stays inside it under a tick. */
  lemma TickKeepsCursorBound(s: Session, g: GraphId)
    requires WellFormed(s) && s.Chan(g).cursor <= |s.Chan(g).driving|
    ensures Tick(s, g).Chan(g).cursor <= |Tick(s, g).Chan(g).driving|
    ensures Tick(s, g).Chan(g).cursor >= s.Chan(g).cursor
  {
  }

  /** After `n` ticks of a playing graph whose cursor starts inside its driving data,
      the cursor is `min(start + n, |driving|)`; the other graph is untouched. */
  lemma {:induction false} TicksCursor(s: Session, g: GraphId, n: nat)
    requires WellFormed(s) && s.Chan(g).playing && s.Chan(g).cursor <= |s.Chan(g).driving|
    ensures var c := s.Chan(g).cursor + n;
            Ticks(s, g, n).Chan(g).cursor == (if c <= |s.Chan(g).driving| then c else |s.Chan(g).driving|)
    ensures Ticks(s, g, n).Chan(Other(g)) == s.Chan(Other(g))
    ensures Ticks(s, g, n).Chan(g).driving == s.Chan(g).driving
    decreases n
  {
    if n > 0 {
      TicksCursor(Tick(s, g), g, n - 1);
    }
  }

  /** With empty driving data, ticks never move the cursor (this is every graph before
      its first import or switch). */
  lemma {:induction false} EmptyDrivingNeverAdvances(s: Session, g: GraphId, n: nat)
    requires WellFormed(s) && s.Chan(g).driving == []
    ensures Ticks(s, g, n).Chan(g).cursor == s.Chan(g).cursor
    ensures Ticks(s, g, n).Chan(g).driving == []
    decreases n
  {
    if n > 0 {
      EmptyDrivingNeverAdvances(Tick(s, g), g, n - 1);
    }
  }

  /** Reference for the curves a tick draws when no step raises: every visible signal
      on `g`, cut to its first `k` samples, in list order. */
  function Drawn(es: seq<Entry>, vis: seq<bool>, g: GraphId, k: nat): seq<Samples>
    requires |vis| == |es|
    decreases |es|
  {
    if |es| == 0 then []
    else (if es[0].graph == g && vis[0] then [Prefix(es[0].samples, k)] else [])
         + Drawn(es[1..], vis[1..], g, k)
  }

  /** The index of the last signal on graph `g`, or -1 when there is none. */
  function LastIndex(es: seq<Entry>, g: GraphId): (r: int)
    ensures -1 <= r < |es|
    ensures r >= 0 ==> es[r].graph == g
    ensures forall j :: r < j < |es| ==> es[j].graph != g
    decreases |es|
  {
    if |es| == 0 then -1
    else
      var t := LastIndex(es[1..], g);
      assert forall j :: 1 <= j < |es| ==> es[j] == es[1..][j - 1];
      if t >= 0 then t + 1 else if es[0].graph == g then 0 else -1
  }

  /** No step of the loop on graph `g` raises. */
  predicate NoneRaise(es: seq<Entry>, vis: seq<bool>, g: GraphId, k: nat)
    requires |vis| == |es|
  {
    forall i :: 0 <= i < |es| && es[i].graph == g ==> !Raises(es[i].samples, vis[i], k)
  }

  /** The index of the first signal on `g` whose step raises, or `|es|` when none does. */
  function FirstRaise(es: seq<Entry>, vis: seq<bool>, g: GraphId, k: nat): (n: nat)
    requires |vis| == |es|
    ensures n <= |es|
    ensures forall j :: 0 <= j < n && es[j].graph == g ==> !Raises(es[j].samples, vis[j], k)
    ensures n < |es| ==> es[n].graph == g && Raises(es[n].samples, vis[n], k)
    ensures n == |es| <==> NoneRaise(es, vis, g, k)
    decreases |es|
  {
    if |es| == 0 then 0
    else if es[0].graph == g && Raises(es[0].samples, vis[0], k) then 0
    else
      var m := FirstRaise(es[1..], vis[1..], g, k);
      assert forall j :: 1 <= j < |es| ==> es[j] == es[1..][j - 1] && vis[j] == vis[1..][j - 1];
      m + 1
  }

  /** The loop ends at the first step that raises: it does what it would do on the
      signals before that one alone. */
  lemma {:induction false} RenderStopsAtFirstRaise(es: seq<Entry>, vis: seq<bool>, g: GraphId, k: nat, p: Plot)
    requires |vis| == |es|
    ensures var n := FirstRaise(es, vis, g, k);
            Render(es, vis, g, k, p) == Render(es[..n], vis[..n], g, k, p)
    decreases |es|
  {
    var n := FirstRaise(es, vis, g, k);
    if |es| > 0 && n > 0 {
      var m := FirstRaise(es[1..], vis[1..], g, k);
      assert n == m + 1;
      assert es[..n][1..] == es[1..][..m] && vis[..n][1..] == vis[1..][..m];
      assert es[..n][0] == es[0] && vis[..n][0] == vis[0];
      if es[0].graph != g {
        RenderStopsAtFirstRaise(es[1..], vis[1..], g, k, p);
      } else {
        var y := Prefix(es[0].samples, k);
        var curves := if vis[0] then p.curves + [y] else p.curves;
        RenderStopsAtFirstRaise(es[1..], vis[1..], g, k, Plot(curves, Window(y, k)));
      }
    }
  }

  /** When no step raises the loop runs to the end and draws exactly the reference
      curves. */
  lemma {:induction false} RenderCurves(es: seq<Entry>, vis: seq<bool>, g: GraphId, k: nat, p: Plot)
    requires |vis| == |es| && NoneRaise(es, vis, g, k)
    ensures Render(es, vis, g, k, p).curves == p.curves + Drawn(es, vis, g, k)
    decreases |es|
  {
    if |es| > 0 {
      var rest := Drawn(es[1..], vis[1..], g, k);
      assert NoneRaise(es[1..], vis[1..], g, k) by {
        assert forall j :: 1 <= j < |es| ==> es[j] == es[1..][j - 1] && vis[j] == vis[1..][j - 1];
      }
      if es[0].graph != g {
        RenderCurves(es[1..], vis[1..], g, k, p);
        assert Drawn(es, vis, g, k) == rest;
      } else {
        RenderCurvesStep(es, vis, g, k, p);
      }
    }
  }

  /** The step of `RenderCurves` for a first signal on `g`. */
  lemma {:induction false} RenderCurvesStep(es: seq<Entry>, vis: seq<bool>, g: GraphId, k: nat, p: Plot)
    requires |vis| == |es| > 0 && es[0].graph == g && NoneRaise(es, vis, g, k)
    requires NoneRaise(es[1..], vis[1..], g, k)
    ensures Render(es, vis, g, k, p).curves == p.curves + Drawn(es, vis, g, k)
    decreases |es|, 0
  {
    var y := Prefix(es[0].samples, k);
    assert !Raises(es[0].samples, vis[0], k);
    var curves := if vis[0] then p.curves + [y] else p.curves;
    var rest := Drawn(es[1..], vis[1..], g, k);
    assert Render(es, vis, g, k, p) == Render(es[1..], vis[1..], g, k, Plot(curves, Window(y, k)));
    RenderCurves(es[1..], vis[1..], g, k, Plot(curves, Window(y, k)));
    if vis[0] {
      assert Drawn(es, vis, g, k) == [y] + rest;
      ConcatAssoc(p.curves, [y], rest);
    } else {
      assert Drawn(es, vis, g, k) == rest;
    }
  }

  /** When no step raises, the view after the loop is the window of the last signal on
      `g`, or the previous view when `g` has no signal. */
  lemma {:induction false} RenderView(es: seq<Entry>, vis: seq<bool>, g: GraphId, k: nat, p: Plot)
    requires |vis| == |es| && NoneRaise(es, vis, g, k)
    ensures LastIndex(es, g) < 0 ==> Render(es, vis, g, k, p).view == p.view
    ensures LastIndex(es, g) >= 0 ==>
              Render(es, vis, g, k, p).view == Window(Prefix(es[LastIndex(es, g)].samples, k), k)
    decreases |es|
  {
    if |es| > 0 {
      assert forall j :: 1 <= j < |es| ==> es[j] == es[1..][j - 1] && vis[j] == vis[1..][j - 1];
      assert NoneRaise(es[1..], vis[1..], g, k);
      var t := LastIndex(es[1..], g);
      assert t >= 0 ==> LastIndex(es, g) == t + 1 && es[t + 1] == es[1..][t];
      if es[0].graph != g {
        RenderView(es[1..], vis[1..], g, k, p);
      } else {
        assert !Raises(es[0].samples, vis[0], k);
        var y := Prefix(es[0].samples, k);
        var curves := if vis[0] then p.curves + [y] else p.curves;
        RenderView(es[1..], vis[1..], g, k, Plot(curves, Window(y, k)));
      }
    }
  }

  /** The tick window: after a tick that moves the cursor to `k`, with `n` the first
      signal on `g` whose step raises (or the end of the list), graph `g` shows every
      visible signal before `n` on it as `s[:k]`; when one of them is on `g`, the x range
      is `(k - 150, k)` with limits `[0, k + 0.1]`, and the y range is `[min, max]` of
      the revealed prefix of the last of them; otherwise the view is kept. */
  lemma TickWindow(s: Session, g: GraphId)
    requires WellFormed(s) && Advances(s, g)
    ensures var k := s.Chan(g).cursor + 1;
            var n := FirstRaise(s.signals, s.visible, g, k);
            var es := s.signals[..n];
            var p := Tick(s, g).Chan(g).plot;
            && p.curves == Drawn(es, s.visible[..n], g, k)
            && (LastIndex(es, g) >= 0 ==>
                  && p.view.x == Interval(k as real - 150.0, k as real)
                  && p.view.limits == Some(Limits(0.0, k as real + 0.1, p.view.y.lo, p.view.y.hi))
                  && p.view == Window(Prefix(es[LastIndex(es, g)].samples, k), k))
            && (LastIndex(es, g) < 0 ==> p.view == s.Chan(g).plot.view)
  {
    var k := s.Chan(g).cursor + 1;
    var n := FirstRaise(s.signals, s.visible, g, k);
    var cleared := s.Chan(g).plot.(curves := []);
    var full := Render(s.signals, s.visible, g, k, cleared);
    var cut := Render(s.signals[..n], s.visible[..n], g, k, cleared);
    assert Tick(s, g).Chan(g).plot == full;
    RenderStopsAtFirstRaise(s.signals, s.visible, g, k, cleared);
    assert full == cut;
    assert NoneRaise(s.signals[..n], s.visible[..n], g, k);
    RenderCurves(s.signals[..n], s.visible[..n], g, k, cleared);
    RenderView(s.signals[..n], s.visible[..n], g, k, cleared);
  }

  /** Every curve of the reference is the `k`-prefix of a visible signal on `g`; when no
      step raises, each one has exactly `k` samples, matching the `k` x values. */
  lemma {:induction false} DrawnArePrefixes(es: seq<Entry>, vis: seq<bool>, g: GraphId, k: nat)
    requires |vis| == |es|
    ensures |Drawn(es, vis, g, k)| <= Occurrences(Graphs(es), g)
    ensures forall c :: c in Drawn(es, vis, g, k) ==>
              exists i :: 0 <= i < |es| && es[i].graph == g && vis[i] && c == Prefix(es[i].samples, k)
    ensures NoneRaise(es, vis, g, k) ==> forall c :: c in Drawn(es, vis, g, k) ==> |c| == k
    decreases |es|
  {
    if |es| > 0 {
      assert Graphs(es[1..]) == Graphs(es)[1..];
      DrawnArePrefixes(es[1..], vis[1..], g, k);
      assert forall j :: 1 <= j < |es| ==> es[j] == es[1..][j - 1] && vis[j] == vis[1..][j - 1];
    }
  }

  /** A visible signal shorter than the cursor halts the tick: graph 1 holds `[5]` then
      `[1, 2, 3]`, both visible, driving the second from cursor 1. The tick moves the
      cursor to 2, and the first step's `plot()` gets two x values and one sample, so
      nothing is drawn and the view is kept. */
  lemma ShortVisibleSignalHaltsTick(s: Session)
    requires WellFormed(s)
    requires s.signals == [Signal([5.0], 0), Signal([1.0, 2.0, 3.0], 0)] && s.visible == [true, true]
    requires s.ch0.driving == [1.0, 2.0, 3.0] && s.ch0.cursor == 1 && s.ch0.playing
    ensures Tick(s, 0).ch0.cursor == 2
    ensures Tick(s, 0).ch0.plot == s.ch0.plot.(curves := [])
  {
    assert Raises(s.signals[0].samples, true, 2);
  }
}

=== FILE: registry.dfy ===
/** The imported signals: their samples, the graph each one is plotted on, and the
    colour bookkeeping. */
module Registry {
  import opened Common

  /** One of the two graphs: 0 is "Graph 1", 1 is "Graph 2". */
  type GraphId = g: int | 0 <= g < 2

  /** The graph a switch moves a signal to: `1 - graph_number`. */
  function Other(g: GraphId): (h: GraphId)
    ensures h != g
  {
    1 - g
  }

  type Samples = seq<real>

  /** A colour as the `#RRGGBB` string the viewer stores. */
  type Color = string

  /** A registry row: an element of `imported_signals` (the samples) or of
      `imported_files` (the path), each tagged with the graph it is plotted on. */
  datatype Row = Signal(samples: Samples, graph: GraphId) | File(path: string, graph: GraphId)

  /** One element of `imported_signals`. */
  type Entry = r: Row | r.Signal? witness Signal([], 0)

  /** One element of `imported_files`. */
  type FileEntry = r: Row | r.File? witness File("", 0)

  /** The default colours `ensure_signal_colors_length` pads with. */
  const Palette: seq<Color> := ["#FF0000", "#00FF00", "#0000FF", "#FFFF00", "#FF00FF", "#00FFFF"]

  /** The graph column of `imported_signals` or `imported_files`. */
  function Graphs(rows: seq<Row>): (gs: seq<GraphId>)
    ensures |gs| == |rows|
    ensures forall i :: 0 <= i < |rows| ==> gs[i] == rows[i].graph
  {
    seq(|rows|, i requires 0 <= i < |rows| => rows[i].graph)
  }

  /** How many rows of a graph column name graph `g`. */
  function Occurrences(gs: seq<GraphId>, g: GraphId): nat
  {
    if |gs| == 0 then 0 else (if gs[0] == g then 1 else 0) + Occurrences(gs[1..], g)
  }

  /** `number_of_signals_in_graph`: counts the rows of `imported_signals` on graph `g`
      with a loop, as the viewer does. */
  method NumberOfSignalsInGraph(es: seq<Entry>, g: GraphId) returns (count: nat)
    ensures count == Occurrences(Graphs(es), g)
    ensures count <= |es|
    ensures count == 0 <==> forall i :: 0 <= i < |es| ==> es[i].graph != g
  {
    count := 0;
    var i := 0;
    while i < |es|
      invariant 0 <= i <= |es|
      invariant count == Occurrences(Graphs(es[..i]), g)
      invariant count <= i
      invariant count == 0 <==> forall j :: 0 <= j < i ==> es[j].graph != g
    {
      assert Graphs(es[..i + 1]) == Graphs(es[..i]) + [es[i].graph];
      OccurrencesConcat(Graphs(es[..i]), [es[i].graph], g);
      if es[i].graph == g {
        count := count + 1;
      }
      i := i + 1;
    }
    assert es[..i] == es;
  }

  lemma {:induction false} OccurrencesConcat(a: seq<GraphId>, b: seq<GraphId>, g: GraphId)
    ensures Occurrences(a + b, g) == Occurrences(a, g) + Occurrences(b, g)
  {
    if |a| == 0 {
      assert a + b == b;
    } else {
      assert (a + b)[1..] == a[1..] + b;
      OccurrencesConcat(a[1..], b, g);
    }
  }

  /** Every row is on exactly one of the two graphs. */
  lemma {:induction false} OccurrencesPartition(gs: seq<GraphId>)
    ensures Occurrences(gs, 0) + Occurrences(gs, 1) == |gs|
  {
    if |gs| > 0 {
      OccurrencesPartition(gs[1..]);
    }
  }

  /** Rewriting one row's graph moves exactly one unit of count from the old graph to the new. */
  lemma {:induction false} OccurrencesUpdate(gs: seq<GraphId>, i: nat, h: GraphId, g: GraphId)
    requires i < |gs|
    ensures Occurrences(gs[i := h], g)
         == Occurrences(gs, g) - (if gs[i] == g then 1 else 0) + (if h == g then 1 else 0)
  {
    if i == 0 {
      assert gs[i := h][1..] == gs[1..];
    } else {
      assert gs[i := h][1..] == gs[1..][i - 1 := h];
      OccurrencesUpdate(gs[1..], i - 1, h, g);
    }
  }

  /** A row on graph `g` contributes to its count. */
  lemma {:induction false} OccurrencesPositive(gs: seq<GraphId>, g: GraphId, i: nat)
    requires i < |gs| && gs[i] == g
    ensures Occurrences(gs, g) >= 1
  {
    if i > 0 {
      OccurrencesPositive(gs[1..], g, i - 1);
    }
  }

  /** A graph has no rows exactly when no row names it. */
  lemma {:induction false} OccurrencesZero(gs: seq<GraphId>, g: GraphId)
    ensures Occurrences(gs, g) == 0 <==> forall k :: 0 <= k < |gs| ==> gs[k] != g
  {
    if |gs| > 0 {
      OccurrencesZero(gs[1..], g);
      assert forall k :: 1 <= k < |gs| ==> gs[k] == gs[1..][k - 1];
    }
  }

  /** When a graph holds exactly one row, every other row is on the other graph. */
  lemma {:induction false} OccurrencesSingle(gs: seq<GraphId>, g: GraphId, i: nat, j: nat)
    requires Occurrences(gs, g) == 1
    requires i < |gs| && j < |gs| && gs[i] == g && i != j
    ensures gs[j] != g
  {
    if i == 0 {
      OccurrencesZero(gs[1..], g);
      assert gs[j] == gs[1..][j - 1];
    } else {
      OccurrencesPositive(gs[1..], g, i - 1);
      if j > 0 {
        OccurrencesSingle(gs[1..], g, i - 1, j - 1);
        assert gs[j] == gs[1..][j - 1];
      }
    }
  }

  /** `ensure_signal_colors_length`: when fewer than `n` colours are stored, appends
      palette entries by position (`default_colors[len(colors):n]`, which stops at the
      palette's end); otherwise leaves the list alone. */
  function EnsureColorsLength(colors: seq<Color>, n: nat): (r: seq<Color>)
    ensures |colors| >= n ==> r == colors
    ensures |colors| <= |r| && r[..|colors|] == colors
    ensures |colors| < n ==> |r| == (if |colors| >= |Palette| then |colors|
                                     else if n <= |Palette| then n else |Palette|)
    ensures forall i :: |colors| <= i < |r| ==> r[i] == Palette[i]
  {
    if |colors| < n then colors + Slice(Palette, |colors|, n) else colors
  }
}

=== FILE: session.dfy ===
/** The two-graph playback session the viewer window keeps in plain fields, as one
    immutable record. */
module Sessions {
  import opened Common
  import opened Registry
  import opened Viewport

  /** A `QTimer`, reduced to whether it fires and its period in milliseconds. A timer
      that was never started has interval 0. */
  datatype Timer = Timer(running: bool, interval: int)

  /** The period every `start(60)` call uses. */
  const BaseInterval: int := 60

  /** `QTimer.start(ms)`: runs with period `ms`. */
  function Start(ms: int): Timer { Timer(true, ms) }

  /** `QTimer.stop()`: halts and keeps the period. */
  function Stop(t: Timer): Timer { t.(running := false) }

  /** A timer never runs with a period below 1 ms. */
  predicate TimerOk(t: Timer) {
    t.interval >= 0 && (t.running ==> t.interval >= 1)
  }

  /** The curves currently drawn on a plot widget (`listDataItems()`) and its view range. */
  datatype Plot = Plot(curves: seq<Samples>, view: View)

  /** Everything the window keeps per graph: the cursor `signal_index_g`, the driving
      data `signal_data_g` whose length bounds the cursor, `playing_state[g]`, the timer,
      `last_position[g]` and the plot widget. */
  datatype Channel = Channel(cursor: nat, driving: Samples, playing: bool, timer: Timer,
                             lastPosition: nat, plot: Plot)

  /** The session: both graphs, the registry lists `imported_signals`, `imported_files`,
      `signal_colors` and the per-row visibility checkboxes, the link flag, the graph
      selector's index and `current_graph`. */
  datatype Session = Session(ch0: Channel, ch1: Channel,
                             signals: seq<Entry>, files: seq<FileEntry>,
                             colors: seq<Color>, visible: seq<bool>,
                             linked: bool, selected: GraphId, currentGraph: GraphId)
  {
    function Chan(g: GraphId): Channel {
      if g == 0 then ch0 else ch1
    }

    function WithChan(g: GraphId, c: Channel): (r: Session)
      ensures r.Chan(g) == c && r.Chan(Other(g)) == Chan(Other(g))
      ensures r.signals == signals && r.files == files && r.colors == colors && r.visible == visible
      ensures r.linked == linked && r.selected == selected && r.currentGraph == currentGraph
    {
      if g == 0 then this.(ch0 := c) else this.(ch1 := c)
    }

    /** `number_of_signals_in_graph(g)`. */
    function CountInGraph(g: GraphId): nat {
      Occurrences(Graphs(signals), g)
    }
  }

  /** What every reachable session satisfies: the four registry lists have one entry per
      imported signal, the two graph columns agree, and both timers are sane. */
  predicate WellFormed(s: Session) {
    && |s.files| == |s.signals|
    && |s.colors| == |s.signals|
    && |s.visible| == |s.signals|
    && Graphs(s.signals) == Graphs(s.files)
    && TimerOk(s.ch0.timer) && TimerOk(s.ch1.timer)
  }

  /** The registry lists are the same in both sessions. */
  predicate SameRegistry(s: Session, r: Session) {
    r.signals == s.signals && r.files == s.files && r.colors == s.colors && r.visible == s.visible
  }

  /** The link flag, selector index and `current_graph` are the same in both sessions. */
  predicate SameControls(s: Session, r: Session) {
    r.linked == s.linked && r.selected == s.selected && r.currentGraph == s.currentGraph
  }

  /** Whether a control-panel command reaches graph `g`: both graphs when linked,
      otherwise the graph the selector shows. */
  predicate Targets(s: Session, g: GraphId) {
    s.linked || g == s.selected
  }

  /** `update_signal_list` recreates every visibility checkbox, checked. */
  function ShowAll(s: Session): (r: Session)
    ensures |r.visible| == |s.visible| && forall i :: 0 <= i < |r.visible| ==> r.visible[i]
    ensures r == s.(visible := r.visible)
  {
    s.(visible := seq(|s.visible|, _ => true))
  }

  /** A graph's state in a freshly constructed window: no data, cursor 0, marked playing,
      timer never started. Graph 1's widget starts with two empty curves (it calls
      `plot()` twice), graph 2's with one. */
  function FreshChannel(initialCurves: nat): Channel {
    Channel(0, [], true, Timer(false, 0), 0, Plot(seq(initialCurves, _ => []), InitialView))
  }

  /** The session right after the window is constructed. */
  function Init(): (s: Session)
    ensures WellFormed(s)
    ensures s.signals == [] && !s.linked && s.selected == 0
    ensures forall g: GraphId :: s.Chan(g).cursor == 0 && s.Chan(g).driving == [] && s.Chan(g).playing
    ensures forall g: GraphId :: !s.Chan(g).timer.running
  {
    Session(FreshChannel(2), FreshChannel(1), [], [], [], [], false, 0, 0)
  }
}

=== FILE: snapshot.dfy ===
/** The signal selection of `take_snapshot_event` and the statistics a snapshot reports. */
module Snapshot {
  import opened Common
  import opened Registry
  import opened Sessions

  /** One copy of `p` per row of `files` on graph `g`. */
  function Collect(files: seq<FileEntry>, g: GraphId, p: Samples): (r: seq<Samples>)
    ensures |r| == Occurrences(Graphs(files), g)
    ensures forall i :: 0 <= i < |r| ==> r[i] == p
    decreases |files|
  {
    if |files| == 0 then []
    else
      assert Graphs(files[1..]) == Graphs(files)[1..];
      (if files[0].graph == g then [p] else []) + Collect(files[1..], g, p)
  }

  /** The selection loop of `take_snapshot_event`: for every file on the selected graph it
      takes that graph's driving data up to its cursor (`signal_data_g[:signal_index_g]`),
      not the file's own samples. */
  function SnapshotSelection(s: Session): (r: seq<Samples>)
    requires WellFormed(s)
    ensures |r| == s.CountInGraph(s.selected)
    ensures forall i :: 0 <= i < |r| ==>
              r[i] == Prefix(s.Chan(s.selected).driving, s.Chan(s.selected).cursor)
  {
    var c := s.Chan(s.selected);
    Collect(s.files, s.selected, Prefix(c.driving, c.cursor))
  }

  /** Two different signals on the selected graph are both reported as the graph's
      driving prefix. */
  lemma SnapshotRepeatsDrivingPrefix(s: Session, a: Samples, b: Samples)
    requires WellFormed(s) && s.selected == 0 && a != b
    requires s.signals == [Signal(a, 0), Signal(b, 0)]
    requires s.ch0.driving == b && s.ch0.cursor == |b|
    ensures SnapshotSelection(s) == [b, b]
  {
    var gs: seq<GraphId> := [0, 0];
    assert Graphs(s.signals) == gs;
    assert gs[1..] == [0] && gs[1..][1..] == [];
    assert Occurrences(gs, 0) == 2;
    var r := SnapshotSelection(s);
    assert |r| == 2 && r[0] == b && r[1] == b;
  }

  /** The part of `calculate_signal_stats` that is exact: duration (the sample count),
      minimum and maximum. */
  datatype Stats = Stats(duration: nat, min: real, max: real)

  /** Statistics of a played prefix. `np.min` of an empty prefix (a graph whose cursor is
      still 0) raises `ValueError`. */
  function SignalStats(data: Samples): (o: Outcome<Stats>)
    ensures o.Raised? <==> |data| == 0
    ensures o.Raised? ==> o.error == ValueError
    ensures o.Done? ==> && o.value.duration == |data|
                        && o.value.min in data && o.value.max in data
                        && forall i :: 0 <= i < |data| ==> o.value.min <= data[i] <= o.value.max
  {
    if |data| == 0 then Raised(ValueError)
    else Done(Stats(|data|, Min(data), Max(data)))
  }
}

=== FILE: switching.dfy ===
/** Moving a signal to the other graph (`switch_graph`) and the visibility checkboxes'
    timer rule (`update_signal_visibility`). */
module Switching {
  import opened Common
  import opened Registry
  import opened Sessions
  import opened Playback

  /** The registry after row `i` moves from graph `g` to `Other(g)`. */
  predicate Moved(s: Session, r: Session, i: nat)
    requires i < |s.signals| && i < |s.files|
  {
    && r.signals == s.signals[i := Signal(s.signals[i].samples, Other(s.signals[i].graph))]
    && r.files == s.files[i := File(s.files[i].path, Other(s.files[i].graph))]
    && r.colors == s.colors
  }

  /** `switch_graph(r)`: clears both plots, flips row `r`'s graph (Python indexing, so a
      negative `r` counts from the end) in both lists, points the destination graph's
      driving data at the moved samples and, when they are non-empty, marks it playing
      and restarts its timer at 60 ms; then ticks graph 1 and graph 2 once each, and
      `update_signal_list` recreates every visibility checkbox checked. The destination
      cursor is kept. A row outside the list raises `IndexError`. */
  function SwitchGraph(s: Session, row: int): (o: Outcome<Session>)
    requires WellFormed(s)
    ensures o.Done? <==> -(|s.signals| as int) <= row < |s.signals|
    ensures o.Raised? ==> o.error == IndexError
    ensures o.Done? ==> WellFormed(o.value) && o.value.linked == s.linked && o.value.selected == s.selected
  {
    match PyIndex(|s.signals|, row)
    case None => Raised(IndexError)
    case Some(i) =>
      var src := s.files[i].graph;
      var dst := Other(src);
      var data := s.signals[i].samples;
      var cleared := s.(ch0 := s.ch0.(plot := s.ch0.plot.(curves := [])),
                        ch1 := s.ch1.(plot := s.ch1.plot.(curves := [])));
      var moved := cleared.(signals := s.signals[i := Signal(data, dst)],
                            files := s.files[i := File(s.files[i].path, dst)],
                            currentGraph := src);
      var d := moved.Chan(dst);
      var pointed := moved.WithChan(dst, if |data| > 0 then d.(driving := data, playing := true, timer := Start(BaseInterval))
                                         else d.(driving := data));
      Done(ShowAll(Tick(Tick(pointed, 0), 1)))
  }

  /** A switch of row `i` flips that row's graph in both lists and nothing else in them. */
  lemma SwitchMoves(s: Session, row: int, i: nat)
    requires WellFormed(s) && PyIndex(|s.signals|, row) == Some(i)
    ensures Moved(s, SwitchGraph(s, row).value, i)
  {
    assert s.files[i].graph == s.signals[i].graph by {
      assert Graphs(s.signals)[i] == Graphs(s.files)[i];
    }
  }

  /** What a switch of row `i` does: only that row's graph flips, in both lists; colours
      stay; the destination drives the moved samples, keeps its cursor and, when they are
      non-empty, plays with its timer at 60 ms; each graph then ticks once. */
  lemma SwitchEffect(s: Session, row: int, i: nat)
    requires WellFormed(s) && PyIndex(|s.signals|, row) == Some(i)
    ensures var r := SwitchGraph(s, row).value;
            var src := s.signals[i].graph;
            var dst := Other(src);
            var data := s.signals[i].samples;
            && Moved(s, r, i)
            && r.currentGraph == src
            && (forall j :: 0 <= j < |r.visible| ==> r.visible[j])
            && r.Chan(dst).driving == data
            && (|data| > 0 ==> r.Chan(dst).playing && r.Chan(dst).timer == Start(BaseInterval))
            && (|data| == 0 ==> r.Chan(dst).playing == s.Chan(dst).playing
                                && r.Chan(dst).timer == s.Chan(dst).timer)
            && r.Chan(dst).lastPosition == s.Chan(dst).lastPosition
            && (r.Chan(dst).cursor == s.Chan(dst).cursor + 1
                <==> (|data| > 0 || s.Chan(dst).playing) && s.Chan(dst).cursor < |data|)
            && r.Chan(dst).cursor - s.Chan(dst).cursor in {0, 1}
            && r.Chan(src).driving == s.Chan(src).driving
            && r.Chan(src).playing == s.Chan(src).playing
            && r.Chan(src).timer == s.Chan(src).timer
            && (r.Chan(src).cursor == s.Chan(src).cursor + 1 <==> Advances(s, src))
  {
    assert s.files[i].graph == s.signals[i].graph by {
      assert Graphs(s.signals)[i] == Graphs(s.files)[i];
    }
  }

  /** A switch moves exactly one signal: the source graph's count drops by one, the
      destination's rises by one, and the total stays the number of rows. */
  lemma SwitchCounts(s: Session, row: int, i: nat)
    requires WellFormed(s) && PyIndex(|s.signals|, row) == Some(i)
    ensures var r := SwitchGraph(s, row).value;
            var src := s.signals[i].graph;
            && r.CountInGraph(src) == s.CountInGraph(src) - 1
            && r.CountInGraph(Other(src)) == s.CountInGraph(Other(src)) + 1
            && r.CountInGraph(0) + r.CountInGraph(1) == s.CountInGraph(0) + s.CountInGraph(1)
            && r.CountInGraph(0) + r.CountInGraph(1) == |r.signals|
  {
    var r := SwitchGraph(s, row).value;
    var src := s.signals[i].graph;
    SwitchEffect(s, row, i);
    var gs := Graphs(s.signals);
    assert Graphs(r.signals) == gs[i := Other(src)];
    OccurrencesUpdate(gs, i, Other(src), src);
    OccurrencesUpdate(gs, i, Other(src), Other(src));
    OccurrencesPartition(gs);
    OccurrencesPartition(Graphs(r.signals));
  }

  /** Switching the same row twice restores every signal's and file's graph. */
  lemma SwitchTwiceRestores(s: Session, row: int)
    requires WellFormed(s) && SwitchGraph(s, row).Done?
    ensures SwitchGraph(SwitchGraph(s, row).value, row).Done?
    ensures SwitchGraph(SwitchGraph(s, row).value, row).value.signals == s.signals
    ensures SwitchGraph(SwitchGraph(s, row).value, row).value.files == s.files
    ensures SwitchGraph(SwitchGraph(s, row).value, row).value.colors == s.colors
  {
    var i := PyIndex(|s.signals|, row).value;
    var t := SwitchGraph(s, row).value;
    SwitchMoves(s, row, i);
    var u := SwitchGraph(t, row).value;
    SwitchMoves(t, row, i);
    var e, f := s.signals[i], s.files[i];
    assert Other(Other(e.graph)) == e.graph && Other(Other(f.graph)) == f.graph;
    UpdateTwice(s.signals, i, Signal(e.samples, Other(e.graph)), e);
    UpdateTwice(s.files, i, File(f.path, Other(f.graph)), f);
  }

  /** A negative row counts from the end: `switch_graph(-1)` moves the last signal. */
  lemma SwitchLastRow(s: Session)
    requires WellFormed(s) && |s.signals| > 0
    ensures SwitchGraph(s, -1) == SwitchGraph(s, |s.signals| - 1)
  {
  }

  /** The switch does not reset the destination cursor: when it already lies beyond the
      moved samples, the destination's cursor exceeds its driving data and its ticks
      stop advancing. */
  lemma SwitchCanLeaveCursorPastData(s: Session, row: int, i: nat)
    requires WellFormed(s) && PyIndex(|s.signals|, row) == Some(i)
    requires s.Chan(Other(s.signals[i].graph)).cursor > |s.signals[i].samples|
    ensures var r := SwitchGraph(s, row).value;
            var dst := Other(s.signals[i].graph);
            r.Chan(dst).cursor > |r.Chan(dst).driving| && !Advances(r, dst)
  {
    SwitchEffect(s, row, i);
  }

  // ---------------------------------------------------------------------------
  // Visibility

  /** The timer update one visibility row applies: a checked box starts the timer at
      60 ms, an unchecked one stops it. */
  function RowRule(t: Timer, checked: bool): Timer {
    if checked then Start(BaseInterval) else Stop(t)
  }

  /** Whether row `j` acts on its graph's timer: its graph holds exactly one signal and
      the row index is below the number of curves drawn on that graph's plot. */
  predicate Fires(s: Session, j: nat)
    requires WellFormed(s) && j < |s.files|
  {
    var g := s.files[j].graph;
    j < |s.Chan(g).plot.curves| && s.CountInGraph(g) == 1
  }

  /** One row of `update_signal_visibility`: the row's graph timer follows its rule
      when the row fires; everything else is kept. */
  function VisibilityStep(s: Session, i: nat): (r: Session)
    requires WellFormed(s) && i < |s.files|
    ensures WellFormed(r) && SameRegistry(s, r) && SameControls(s, r)
    ensures r.ch0.plot == s.ch0.plot && r.ch1.plot == s.ch1.plot
    ensures r.ch0 == s.ch0.(timer := r.ch0.timer) && r.ch1 == s.ch1.(timer := r.ch1.timer)
    ensures r.Chan(Other(s.files[i].graph)) == s.Chan(Other(s.files[i].graph))
    ensures r.Chan(s.files[i].graph).timer
            == (if Fires(s, i) then RowRule(s.Chan(s.files[i].graph).timer, s.visible[i])
                else s.Chan(s.files[i].graph).timer)
  {
    var g := s.files[i].graph;
    var c := s.Chan(g);
    if Fires(s, i) then s.WithChan(g, c.(timer := RowRule(c.timer, s.visible[i]))) else s
  }

  /** Whether a row fires depends only on the registry and the drawn curves. */
  lemma FiresIgnoresTimers(s: Session, t: Session)
    requires WellFormed(s) && WellFormed(t) && SameRegistry(s, t)
    requires s.ch0.plot == t.ch0.plot && s.ch1.plot == t.ch1.plot
    ensures forall j :: 0 <= j < |s.files| ==> (Fires(s, j) <==> Fires(t, j))
  {
  }

  /** The loop of `update_signal_visibility` from row `i` on. */
  function VisibilityPass(s: Session, i: nat): (r: Session)
    requires WellFormed(s)
    ensures WellFormed(r) && SameRegistry(s, r) && SameControls(s, r)
    ensures r.ch0 == s.ch0.(timer := r.ch0.timer) && r.ch1 == s.ch1.(timer := r.ch1.timer)
    decreases |s.files| - i
  {
    if i >= |s.files| then s else VisibilityPass(VisibilityStep(s, i), i + 1)
  }

  /** `update_signal_visibility`, run when any checkbox changes. */
  function UpdateSignalVisibility(s: Session): (r: Session)
    requires WellFormed(s)
    ensures WellFormed(r) && SameRegistry(s, r) && SameControls(s, r)
    ensures r.ch0 == s.ch0.(timer := r.ch0.timer) && r.ch1 == s.ch1.(timer := r.ch1.timer)
  {
    VisibilityPass(s, 0)
  }

  /** Ticking the checkbox of row `row` to `checked`. */
  function SetVisible(s: Session, row: nat, checked: bool): (r: Session)
    requires WellFormed(s) && row < |s.visible|
    ensures WellFormed(r) && r.visible == s.visible[row := checked]
    ensures r.signals == s.signals && r.files == s.files && r.colors == s.colors && SameControls(s, r)
    ensures r.ch0 == s.ch0.(timer := r.ch0.timer) && r.ch1 == s.ch1.(timer := r.ch1.timer)
  {
    UpdateSignalVisibility(s.(visible := s.visible[row := checked]))
  }

  /** Rows from `i` on that do not fire for graph `g` leave its timer alone. */
  lemma {:induction false} PassQuiet(s: Session, i: nat, g: GraphId)
    requires WellFormed(s)
    requires forall j :: i <= j < |s.files| && s.files[j].graph == g ==> !Fires(s, j)
    ensures VisibilityPass(s, i).Chan(g).timer == s.Chan(g).timer
    decreases |s.files| - i
  {
    if i < |s.files| {
      var next := VisibilityStep(s, i);
      FiresIgnoresTimers(s, next);
      PassQuiet(next, i + 1, g);
    }
  }

  /** A graph holding a single signal, at row `j`, holds no other row. */
  lemma OnlyRowOnGraph(s: Session, g: GraphId, j: nat)
    requires WellFormed(s) && j < |s.files| && s.files[j].graph == g && s.CountInGraph(g) == 1
    ensures forall k :: 0 <= k < |s.files| && k != j ==> s.files[k].graph != g
  {
    var gs := Graphs(s.signals);
    assert gs == Graphs(s.files);
    forall k | 0 <= k < |s.files| && k != j
      ensures s.files[k].graph != g
    {
      OccurrencesSingle(gs, g, j, k);
      assert gs[k] == s.files[k].graph;
    }
  }

  /** When graph `g` holds the single row `j` and the pass has not yet reached it, the
      pass leaves `g`'s timer as that row's rule sets it (or alone, if the row does not
      fire). */
  lemma {:induction false} PassSingle(s: Session, i: nat, g: GraphId, j: nat)
    requires WellFormed(s) && i <= j < |s.files| && s.files[j].graph == g && s.CountInGraph(g) == 1
    ensures VisibilityPass(s, i).Chan(g).timer
            == (if Fires(s, j) then RowRule(s.Chan(g).timer, s.visible[j]) else s.Chan(g).timer)
    decreases |s.files| - i
  {
    if i < j {
      var next := VisibilityStep(s, i);
      OnlyRowOnGraph(s, g, j);
      StepOffGraph(s, i, g, j);
      assert next.files == s.files && next.signals == s.signals && next.visible == s.visible;
      PassSingle(next, i + 1, g, j);
      assert VisibilityPass(s, i) == VisibilityPass(next, i + 1);
    } else {
      PassSingleAt(s, g, j);
    }
  }

  /** A row on the other graph leaves `g`'s channel, and whether row `j` fires, alone. */
  lemma StepOffGraph(s: Session, i: nat, g: GraphId, j: nat)
    requires WellFormed(s) && i < |s.files| && j < |s.files| && s.files[i].graph != g
    ensures VisibilityStep(s, i).Chan(g) == s.Chan(g)
    ensures Fires(VisibilityStep(s, i), j) == Fires(s, j)
  {
    assert Other(s.files[i].graph) == g;
  }

  /** The step of `PassSingle` at the row itself: the row applies its rule, and no later
      row is on `g`. */
  lemma PassSingleAt(s: Session, g: GraphId, j: nat)
    requires WellFormed(s) && j < |s.files| && s.files[j].graph == g && s.CountInGraph(g) == 1
    ensures VisibilityPass(s, j).Chan(g).timer
            == (if Fires(s, j) then RowRule(s.Chan(g).timer, s.visible[j]) else s.Chan(g).timer)
  {
    var next := VisibilityStep(s, j);
    OnlyRowOnGraph(s, g, j);
    assert next.files == s.files;
    PassQuiet(next, j + 1, g);
    assert VisibilityPass(s, j) == VisibilityPass(next, j + 1);
  }

  /** The visibility timer rule. A graph holding zero or several signals keeps its timer.
      A graph holding exactly one signal, at row `j`, gets its timer started at 60 ms or
      stopped to match that row's checkbox, but only when `j` is below the number of
      curves drawn on the graph; otherwise its timer is kept too. Playing flags, cursors
      and data never change. */
  lemma VisibilityTimerRule(s: Session, g: GraphId)
    requires WellFormed(s)
    ensures var r := UpdateSignalVisibility(s);
            && (s.CountInGraph(g) != 1 ==> r.Chan(g).timer == s.Chan(g).timer)
            && (forall j :: 0 <= j < |s.signals| && s.signals[j].graph == g && s.CountInGraph(g) == 1 ==>
                  r.Chan(g).timer == (if j < |s.Chan(g).plot.curves|
                                      then RowRule(s.Chan(g).timer, s.visible[j])
                                      else s.Chan(g).timer))
            && r.Chan(g).playing == s.Chan(g).playing && r.Chan(g).cursor == s.Chan(g).cursor
  {
    var gs := Graphs(s.signals);
    assert gs == Graphs(s.files);
    if s.CountInGraph(g) != 1 {
      PassQuiet(s, 0, g);
    } else {
      forall j | 0 <= j < |s.signals| && s.signals[j].graph == g
        ensures UpdateSignalVisibility(s).Chan(g).timer
                == (if j < |s.Chan(g).plot.curves| then RowRule(s.Chan(g).timer, s.visible[j])
                    else s.Chan(g).timer)
      {
        assert gs[j] == g;
        PassSingle(s, 0, g, j);
      }
    }
  }

  /** The rule compares the row index with the number of drawn curves, and a graph with
      one signal draws at most one curve. So when graph 2 holds only the second imported
      signal, unchecking it does not stop graph 2's timer. */
  lemma LoneSignalOnLaterRowKeepsTimer(s: Session)
    requires s.signals == [Signal([1.0], 0), Signal([2.0], 1)]
    requires s.files == [File("a.csv", 0), File("b.csv", 1)]
    requires s.colors == ["#112233", "#445566"] && s.visible == [true, true]
    requires s.ch1.plot.curves == [[2.0]] && s.ch1.timer == Start(BaseInterval)
    requires TimerOk(s.ch0.timer)
    ensures SetVisible(s, 1, false).ch1.timer == Start(BaseInterval)
  {
    var t := s.(visible := [true, false]);
    assert Graphs(t.signals) == [0, 1];
    assert Graphs(t.files) == [0, 1];
    var gs: seq<GraphId> := [0, 1];
    assert gs[1..] == [1] && gs[1..][1..] == [];
    assert Occurrences(gs, 1) == 1;
    assert t.CountInGraph(1) == 1;
    VisibilityTimerRule(t, 1);
    assert s.visible[1 := false] == t.visible;
    assert SetVisible(s, 1, false) == UpdateSignalVisibility(t);
    assert s.signals[1].graph == 1 && |t.Chan(1).plot.curves| == 1;
  }
}

=== FILE: viewport.dfy ===
/** Axis ranges of one plot widget, the window a playback tick requests, and zoom
    (idealised over `real`). */
module Viewport {
  import opened Common

  datatype Interval = Interval(lo: real, hi: real) {
    function Center(): real { (lo + hi) / 2.0 }
    function Width(): real { hi - lo }
  }

  /** The bounds passed to `setLimits`. */
  datatype Limits = Limits(xMin: real, xMax: real, yMin: real, yMax: real)

  /** The view range of a plot, plus the limits last set on it (none before the first tick). */
  datatype View = View(x: Interval, y: Interval, limits: Option<Limits>)

  /** A plot widget right after construction: `setYRange(-1, 1)`, `setXRange(0, 1)`. */
  const InitialView: View := View(Interval(0.0, 1.0), Interval(-1.0, 1.0), None)

  /** How many samples the scrolling x window spans. */
  const VisibleWidth: nat := 150

  const ZoomInFactor: real := 0.7
  const ZoomOutFactor: real := 1.1

  /** What one signal's step of a tick requests once the cursor is `k` and its
      revealed prefix is `y`: the x range `(k - 150, k)`, the y range `[min y, max y]`,
      and limits `xMin = 0`, `xMax = k + 0.1`, `yMin = min y`, `yMax = max y`. */
  function Window(y: seq<real>, k: nat): (v: View)
    requires |y| > 0
    ensures v.x.Width() == VisibleWidth as real && v.x.hi == k as real
    ensures forall i :: 0 <= i < |y| ==> v.y.lo <= y[i] <= v.y.hi
    ensures v.y.lo in y && v.y.hi in y
    ensures v.limits.Some? && v.limits.value.xMin == 0.0 && v.limits.value.xMax == k as real + 0.1
    ensures v.limits.value.yMin == v.y.lo && v.limits.value.yMax == v.y.hi
  {
    View(Interval(k as real - VisibleWidth as real, k as real), Interval(Min(y), Max(y)),
         Some(Limits(0.0, k as real + 0.1, Min(y), Max(y))))
  }

  /** One axis of `apply_zoom`: each end moves to `(end - center) * f + center`. */
  function ScaleAbout(iv: Interval, f: real): (r: Interval)
    ensures r.Center() == iv.Center()
    ensures r.Width() == iv.Width() * f
  {
    var c := iv.Center();
    Interval((iv.lo - c) * f + c, (iv.hi - c) * f + c)
  }

  /** `apply_zoom`: scales both axes of the view range about their centres; limits are kept. */
  function ApplyZoom(v: View, f: real): (r: View)
    ensures r.x.Center() == v.x.Center() && r.y.Center() == v.y.Center()
    ensures r.x.Width() == v.x.Width() * f && r.y.Width() == v.y.Width() * f
    ensures r.limits == v.limits
  {
    View(ScaleAbout(v.x, f), ScaleAbout(v.y, f), v.limits)
  }

  /** Over the reals, zooming by `f` and then by `1/f` restores the view exactly. */
  lemma ZoomInverse(v: View, f: real)
    requires f != 0.0
    ensures ApplyZoom(ApplyZoom(v, f), 1.0 / f) == v
  {
    var w := ApplyZoom(v, f);
    var u := ApplyZoom(w, 1.0 / f);
    assert u.x.Width() == v.x.Width() * f * (1.0 / f);
    assert u.y.Width() == v.y.Width() * f * (1.0 / f);
    IntervalFromCenterWidth(u.x, v.x);
    IntervalFromCenterWidth(u.y, v.y);
  }

  /** An interval is determined by its centre and width. */
  lemma IntervalFromCenterWidth(a: Interval, b: Interval)
    requires a.Center() == b.Center() && a.Width() == b.Width()
    ensures a == b
  {
    assert a.lo + a.hi == b.lo + b.hi;
  }

  /** The zoom-in and zoom-out buttons are not inverses: one press of each leaves
      every axis at 0.77 of its width, so any view of non-zero width changes. */
  lemma ZoomInThenOutShrinks(v: View)
    ensures ApplyZoom(ApplyZoom(v, ZoomInFactor), ZoomOutFactor).x.Width() == v.x.Width() * 0.77
    ensures ApplyZoom(ApplyZoom(v, ZoomInFactor), ZoomOutFactor).y.Width() == v.y.Width() * 0.77
    ensures v.x.Width() != 0.0 ==> ApplyZoom(ApplyZoom(v, ZoomInFactor), ZoomOutFactor) != v
  {
    var u := ApplyZoom(ApplyZoom(v, ZoomInFactor), ZoomOutFactor);
    assert u.x.Width() == v.x.Width() * 0.7 * 1.1;
    assert u.y.Width() == v.y.Width() * 0.7 * 1.1;
  }
}
